=== FILE: README.md ===
# A verified model of the streaming-download service worker

`download-worker.js` is a service worker that lets a web page save a file that it
produces piece by piece, for example a file arriving over a WebRTC data channel,
without holding the whole file in memory. The page registers a transfer under an id,
together with the file's name, type and size. It then navigates to a URL containing
`/stream-download/<id>`. The worker answers that request with a streamed response whose
headers make the browser save it as a download. The page pushes the file's chunks, then
closes or aborts the transfer. The worker tells the page when the stream is first pulled,
each time it wants more data, and when the user cancels. The browser pulls a new stream once
as soon as it is set up, before anything reads it, so the first two of these messages go out
right after registration.

The model has these parts:

- **Transfers** is the transfer registry (`activeStreams`) and the `message` handler for
  `REGISTER_STREAM`, `PUSH_DATA`, `CLOSE_STREAM` and `ABORT_STREAM`. It also covers the
  `pull` and `cancel` callbacks of each transfer's stream. All of these form one sequential
  transition system, `Step(world, event)`, which returns the next world and the
  notifications broadcast. Each stream's controller is abstracted as a queue of chunks and
  a status (open, closed or errored).
- **TransferProperties** proves one-event properties and the reachable-state invariant
  `Consistent`.
- **RunProperties** proves whole-run properties and two end-to-end scenarios.
- **HeaderValues** models what a `Headers` object of the Fetch standard does with a header
  value: the value must fit in bytes, is stripped of surrounding whitespace, and must then hold
  no NUL, CR or LF; otherwise the constructor throws.
- **DeliveryPath** models how the `fetch` handler extracts the transfer id from a request
  path.
- **ResponseHeaders** models header synthesis. **UriComponent**, **Utf8** and **Decimal**
  are the encodings those headers use: `encodeURIComponent`, UTF-8 and decimal numerals.
- **FetchRoute** is the `fetch` handler as a whole, together with a corrected variant whose
  disposition header every filename can take (see "## Findings").

Notifications are modelled as a log of broadcast messages. The stream's `pull` and
`cancel` callbacks are events that name a stream by its handle, which is its position in
the sequence of all streams created. A world's registry entries always name existing
streams; the type `Transfers.World` carries this fact, so each handler is checked to keep
it. The model does not fix when the browser invokes
them, so every run property holds for any order of callbacks.

## Model

| member | source | states |
|---|---|---|
| Transfers.Register | download-worker.js:52-94 | registering adds exactly one stream, open, empty and not yet started, carrying the id; the id's entry names it; every earlier stream and every other entry is kept |
| Transfers.Push | download-worker.js:97-107 | a push keeps the set of ids and the number of streams; each stream keeps its id and status, and its queue either stays as it was or gains exactly the pushed chunk, which only the open stream registered under the id can |
| Transfers.Finish | download-worker.js:109-133 | close and abort remove exactly the id and keep every other entry; no queue changes, and a stream's status changes only from open to the ending status |
| Transfers.PullStream | download-worker.js:62-82 | a pull keeps the ids and every sink; for an existing stream it sends one or two messages, the last being `PULL_DATA` for the stream's id, and two exactly when the stream had not started |
| Transfers.ReasonText | download-worker.js:87 | the reported reason is never empty: a truthy reason is reported as given, and anything else as `User cancelled` |
| Transfers.CancelStream | download-worker.js:83-90 | a cancel only removes ids and keeps every sink; it sends exactly one message for an existing stream and none otherwise |
| Transfers.Step | download-worker.js:48-135 | one event sends at most two messages, adds a stream only when it is a registration, never changes a stream's id and only ever appends to a queue |
| Transfers.Run | download-worker.js:48-135 | a run sends at most two messages per event, never loses a stream, never changes a stream's id and only ever appends to queues |
| Transfers.Consistent | download-worker.js:93 | in a world meeting the invariant, no two registered ids share a stream |
| TransferProperties.InitConsistent | download-worker.js:1 | the empty registry satisfies the invariant: each entry is filed under its own stream's id, and that stream is open and not cancelled |
| TransferProperties.StepConsistent | download-worker.js:48-135 | every message and callback preserves the invariant, so the throwing enqueue (line 100), the throwing `close()` caught at line 114 and the no-op `error()` on an ended stream are unreachable; `error()` never throws, so the `catch` of line 127 is unreachable in any case |
| TransferProperties.PushConsistent | download-worker.js:97-107 | a push preserves the invariant |
| TransferProperties.PullConsistent | download-worker.js:62-82 | a pull preserves the invariant |
| TransferProperties.CancelConsistent | download-worker.js:83-90 | a consumer cancel preserves the invariant |
| TransferProperties.FinishConsistent | download-worker.js:109-133 | close and abort preserve the invariant |
| TransferProperties.RunConsistent | download-worker.js:48-135 | every run from a world satisfying the invariant keeps it |
| TransferProperties.RegisterReplaces | download-worker.js:52-94 | registering leaves exactly one entry for the id, on a fresh open empty stream with no pull waiting; it replaces any earlier entry, keeps every earlier stream, touches no other id and notifies nobody |
| TransferProperties.PushUnknownIgnored | download-worker.js:97-99 | a push for an unregistered id changes nothing and notifies nobody |
| TransferProperties.PushAppends | download-worker.js:97-107 | a push for a registered id appends exactly that chunk to that transfer's queue, clears the waiting pull, and leaves every other stream and id as it was |
| TransferProperties.CloseRemoves | download-worker.js:109-120 | closing removes the id in every case and ends a registered transfer's sink after exactly its queued chunks; no other stream or id changes, and nobody is notified |
| TransferProperties.AbortRemoves | download-worker.js:122-133 | aborting removes the id in every case and errors a registered transfer's sink; no other stream or id changes, and no `STREAM_ABORTED` is sent |
| TransferProperties.PushAfterFinishIgnored | download-worker.js:97-133 | a push after a close or an abort of the same id has no effect |
| TransferProperties.PullNotifies | download-worker.js:62-82 | a pull sends `STREAM_STARTED` first exactly when its stream had not started, then always `PULL_DATA`; it marks the stream started, and it sets the waiting flag only on an entry filed under the stream's id |
| TransferProperties.PullTwiceSameState | download-worker.js:62-82 | a second pull before any push leaves the state unchanged |
| TransferProperties.CancelNotifies | download-worker.js:83-90 | a consumer cancel sends exactly one `STREAM_ABORTED` with the given reason, or `User cancelled` when there is no reason or it is empty; it removes the id and touches no other id |
| RunProperties.RunAppend | download-worker.js:48-135 | running two event sequences one after the other is running their concatenation, with the notifications concatenated |
| RunProperties.PushesAppend | download-worker.js:97-107 | consecutive pushes for a registered id append their chunks in order to that one stream and change nothing else |
| RunProperties.PushesOnFresh | download-worker.js:93-107 | pushes onto a freshly registered stream leave exactly the pushed chunks on it, and it stays open |
| RunProperties.RegisterThenPushes | download-worker.js:52-107 | registering then pushing c1..cn gives a new open stream holding exactly c1..cn; earlier streams are kept and nobody is notified |
| RunProperties.DeliveryInOrder | download-worker.js:52-120 | register, push c1..cn and close: the consumer's stream holds exactly c1..cn, in push order, then end-of-data; the id is removed and no other id is touched |
| RunProperties.StepQuiet | download-worker.js:48-135 | an event that leaves the transfer alone keeps its registration on its stream and appends to that stream exactly the chunk it pushes for the id, if any |
| RunProperties.QuietRun | download-worker.js:48-135 | a run of such events appends to the transfer's stream exactly the chunks pushed for the id, in order |
| RunProperties.QuietThenClose | download-worker.js:109-120 | such a run followed by the close leaves the stream holding its earlier chunks and then the pushed ones, closed, with the id gone |
| RunProperties.FlattenChunks | download-worker.js:100 | the bytes of the enqueued chunks are the bytes the producer sent, in order |
| RunProperties.DeliveryAmongOthers | download-worker.js:52-120 | register, then any events that leave the transfer alone (pulls of any stream, its own pushes, other ids' traffic), then close: the new stream holds exactly the chunks pushed for the id, in push order, then end-of-data; its bytes are the bytes sent, it was never cancelled, and the id is gone |
| RunProperties.ReRegistrationIsolates | download-worker.js:93 | after an id is registered again, its pushes reach only the new stream; the earlier stream keeps exactly what it had |
| RunProperties.StaleCancelDropsNewer | download-worker.js:83-90 | after a re-registration, cancelling the earlier stream removes the newer entry, so later pushes for the id are dropped while the new stream stays open and empty |
| RunProperties.StalePullMarksNewer | download-worker.js:62-67 | after a re-registration, a pull of the earlier stream marks the newer entry as waiting |
| RunProperties.StepStartedAccounting | download-worker.js:55-75 | each step sends exactly as many `STREAM_STARTED` for an id as it flips streams of that id to started; only a registration of the id adds a stream of that id |
| RunProperties.PullAccounting | download-worker.js:62-82 | a pull sends `STREAM_STARTED` for an id exactly as often as it flips a stream of that id to started, and adds no stream |
| RunProperties.RunStartedAccounting | download-worker.js:55-75 | over any run, the `STREAM_STARTED` count for an id equals the number of its streams that became started, and its streams grow only by its registrations |
| RunProperties.StartedOncePerRegistration | download-worker.js:69-75 | from the start, `STREAM_STARTED` for an id is sent at most once per registration of that id, whatever the events |
| RunProperties.PullsNotify | download-worker.js:62-82 | n pulls of one stream send n `PULL_DATA`s and one `STREAM_STARTED` exactly when n > 0 and the stream had not started, and that announcement comes before the first request |
| RunProperties.ScenarioASteps | download-worker.js:52-120 | from the start, registering "A", pulling its stream, pushing two chunks and closing passes through exactly the expected worlds: one entry on stream 0, the waiting flag set by the pull and cleared by the push, the chunks appended in order, and finally no entry and a closed sink |
| RunProperties.ScenarioA | download-worker.js:52-120 | register a 10-byte file, pull, push 4 then 6 bytes, close: the start and pull notifications are sent in that order, the stream holds the 10 bytes in order and then end-of-data, and the id is gone |
| RunProperties.ScenarioB | download-worker.js:52-133 | register, the runtime's first pull, then abort: only the start and the data request are sent, the stream is errored with nothing delivered, and the id is gone |
| DeliveryPath.Contains | download-worker.js:13 | `includes`: a string a path includes is never longer than the path, and the empty string is always included; ContainsInfix and ContainsSplit pin it down |
| DeliveryPath.ContainsInfix | download-worker.js:13 | a path of the form a + sub + b includes sub |
| DeliveryPath.ContainsSplit | download-worker.js:13 | conversely, a path that includes sub has the form a + sub + b |
| DeliveryPath.Split | download-worker.js:14 | `split('/')` gives at least one piece, and no piece contains a slash |
| DeliveryPath.JoinSplit | download-worker.js:14 | joining the pieces with slashes gives the path back |
| DeliveryPath.SplitJoin | download-worker.js:14 | splitting undoes joining slash-free pieces |
| DeliveryPath.SplitAppend | download-worker.js:14 | splitting at a slash splits the two sides independently |
| DeliveryPath.IndexOf | download-worker.js:15 | `indexOf` gives the first position holding the word, or -1 exactly when the word is absent |
| DeliveryPath.IndexOfAt | download-worker.js:15 | `indexOf` finds a word's first occurrence wherever it is |
| DeliveryPath.ExtractId | download-worker.js:13-17 | an extracted id never contains a slash |
| DeliveryPath.ExtractIdFollowsMarker | download-worker.js:14-17 | an extracted id is the segment right after the first `stream-download` segment, and that segment is not the last one |
| DeliveryPath.GuardImpliesIndex | download-worker.js:13-16 | when the path contains `/stream-download/`, the check of line 16 always passes |
| DeliveryPath.ExtractIdDefined | download-worker.js:13-17 | an id is extracted exactly when the path contains `/stream-download/` |
| DeliveryPath.ExtractIdAddressed | download-worker.js:13-17 | a path of the form base + `/stream-download/` + id + rest (no `stream-download` segment in base, a slash-free id, rest empty or starting with a slash) yields that id |
| DeliveryPath.ExtractIdAddresses | download-worker.js:13-17 | conversely, every id extracted from a path that begins with a slash comes from a path of that form |
| ResponseHeaders.StripQuotes | download-worker.js:25 | removing quotes leaves no quote, keeps every other character in order, and shortens the name by exactly the number of quotes |
| ResponseHeaders.StripQuotesNoQuote | download-worker.js:25 | a name without quotes is unchanged |
| ResponseHeaders.StripQuotesIdempotent | download-worker.js:25 | removing quotes twice is removing them once |
| ResponseHeaders.ContentDisposition | download-worker.js:25 | the value reads back, when the quoted part is taken to end at its first quote, as the filename without quotes followed by the encoded filename |
| ResponseHeaders.ParseDispositionShape | download-worker.js:25 | any quote-free name and any encoded name are read back unambiguously from the disposition layout |
| ResponseHeaders.DispositionRoundTrip | download-worker.js:25 | the disposition value reads back as the quote-free name and the encoded name, and decoding the encoded name recovers the full filename |
| ResponseHeaders.ContentTypeValue | download-worker.js:24 | the type is never empty; it is the default exactly when the given type is missing, empty or the default itself, and otherwise it is the given type |
| ResponseHeaders.HasLength | download-worker.js:30 | the size is truthy exactly when it is present and its numeral is not `0` |
| ResponseHeaders.AssembleLookups | download-worker.js:23-32 | each of the five names finds the value lines 24-31 give it, and `Content-Length` is found only when the size is truthy |
| ResponseHeaders.Assemble | download-worker.js:23-32 | the list around a given disposition has four headers, plus `Content-Length` when the size is truthy; AssembleLookups states what each name finds |
| ResponseHeaders.Build | download-worker.js:23-32 | there are four headers, plus one when the size is truthy |
| ResponseHeaders.BuildContentType | download-worker.js:24 | the content type is the registered one when present and non-empty, otherwise `application/octet-stream` |
| ResponseHeaders.BuildDisposition | download-worker.js:25 | the disposition header is present, reads back as the quote-free filename and the encoded filename, and the encoded filename decodes to the filename |
| ResponseHeaders.BuildFixedHeaders | download-worker.js:26-27 | caching is `no-cache` and sniffing is `nosniff` |
| ResponseHeaders.BuildContentLength | download-worker.js:30-32 | `Content-Length` is present exactly when the size is truthy, and it parses back to the size |
| ResponseHeaders.BuildNamesDistinct | download-worker.js:23-32 | no header name is set twice |
| ResponseHeaders.Construct | download-worker.js:23-31 | the `Headers` object is built, and the `append` succeeds, exactly when every value is acceptable; it then holds every header in order, with its value stripped of surrounding whitespace |
| ResponseHeaders.LookupConstruct | download-worker.js:23-31 | looking a name up in the built object gives the stripped value of the first header with that name |
| ResponseHeaders.ConstructAssemble | download-worker.js:23-32 | the headers are built without an exception exactly when the disposition and the content type are acceptable values |
| ResponseHeaders.StripQuotesClean | download-worker.js:25 | removing quotes makes an unacceptable filename neither acceptable nor the reverse |
| ResponseHeaders.DispositionAccepted | download-worker.js:25 | the disposition is an acceptable value exactly when every character of the filename fits in a byte and none is NUL, CR or LF |
| ResponseHeaders.DispositionNormal | download-worker.js:25 | the disposition has no whitespace at its ends, so the `Headers` object keeps it unchanged |
| ResponseHeaders.BuildAccepted | download-worker.js:23-32 | the headers are built without an exception exactly when the filename is clean and the content type is acceptable, so any name with a character beyond U+00FF is refused |
| ResponseHeaders.DispositionReadsBack | download-worker.js:25 | for a filename without a backslash, an RFC 9110 quoted-string reader reads the quoted part as the filename without quotes, followed by the `filename*` parameter |
| ResponseHeaders.TrailingBackslashUnterminated | download-worker.js:25 | as written, a filename ending in a backslash leaves the quoted-string unterminated, because that backslash escapes the closing quote |
| ResponseHeaders.AsciiFallback | download-worker.js:25 | corrected disposition: the fallback name is printable ASCII without quotes, and a name that already is one is kept as it is |
| ResponseHeaders.ReadQuotedEscape | download-worker.js:25 | corrected disposition: an escaped body reads back as exactly the original text, ending at the quote after it |
| ResponseHeaders.SafeDisposition | download-worker.js:25 | corrected disposition: an acceptable header value for every filename |
| ResponseHeaders.SafeDispositionReadsBack | download-worker.js:25 | corrected disposition: for every filename, the quoted part reads back as the fallback name, followed by the `filename*` parameter, which decodes to the full filename |
| ResponseHeaders.BuildSafeAccepted | download-worker.js:23-32 | with the corrected disposition, only the content type can make the constructor throw |
| HeaderValues.Normalize | download-worker.js:23-31 | a stored header value is a slice of the value given with only HTTP whitespace dropped before and after it, and has no whitespace at either end |
| HeaderValues.NormalizeUnique | download-worker.js:23-31 | any slice of the value that is free of whitespace at its ends and has only whitespace around it is the stored value, so the contract of `Normalize` determines it |
| HeaderValues.Accepted | download-worker.js:23-31 | a value whose every character fits in a byte and is not NUL, CR or LF is always taken without an exception |
| HeaderValues.AcceptedStoresClean | download-worker.js:23-31 | what the `Headers` object stores for a value it takes has every character in a byte and none NUL, CR or LF |
| HeaderValues.NormalizeIdempotent | download-worker.js:23-31 | stripping a value twice is stripping it once |
| HeaderValues.AcceptedUnpadded | download-worker.js:23-31 | for a value without whitespace at its ends, being acceptable is having every character fit in a byte and none be NUL, CR or LF |
| HeaderValues.CleanConcat | download-worker.js:25 | a concatenation is clean exactly when both parts are |
| UriComponent.Encode | download-worker.js:25 | `encodeURIComponent` output has only unreserved characters and `%` |
| UriComponent.UnescapeEncode | download-worker.js:25 | percent-decoding the encoded name gives exactly its UTF-8 bytes |
| UriComponent.RecoverString | download-worker.js:25 | percent-decoding and then UTF-8 decoding the encoded name gives the name back |
| UriComponent.EncodeInjective | download-worker.js:25 | distinct filenames have distinct encodings |
| UriComponent.EncodeAlphabet | download-worker.js:25 | every encoded character is an RFC 8187 attr-char, `%`, or one of the four marks `'()*` |
| UriComponent.ApostropheKept | download-worker.js:25 | an apostrophe passes through unescaped although it is not an RFC 8187 attr-char |
| Utf8.EncodeChar | download-worker.js:25 | a character encodes to 1-4 bytes: one byte below 128 for ASCII, otherwise a lead byte of the length's range (`0xC0`-`0xDF`, `0xE0`-`0xEF`, `0xF0`-`0xF7`) then continuation bytes |
| Utf8.DecodeEncode | download-worker.js:25 | decoding the UTF-8 encoding of a string gives the string back |
| Utf8.EncodeDecode | download-worker.js:25 | every byte sequence the strict decoder accepts is the encoding of what it decodes to |
| Decimal.FromNat | download-worker.js:31 | the numeral of a size is canonical: all digits, with no leading zero; the sizes that reach it are at most 2^53, where this is exactly how JavaScript writes a whole number |
| Decimal.ParseFromNat | download-worker.js:31 | the numeral of a size parses back to that size |
| Decimal.FromNatValue | download-worker.js:31 | every canonical numeral is the numeral of its value |
| FetchRoute.Intercept | download-worker.js:11-38 | an answer always reads from a stream that exists |
| FetchRoute.Servable | download-worker.js:23-31 | a registration's metadata is servable exactly when the `Headers` constructor and `append` take its header list without an exception |
| FetchRoute.HeadersFor | download-worker.js:23-32 | the list handed to the `Headers` constructor carries line 24's content type and line 25's disposition |
| FetchRoute.InterceptIff | download-worker.js:13-34 | a request is answered exactly when its path contains `/stream-download/`, it names a registered id, and that registration's filename and content type are values the `Headers` constructor takes |
| FetchRoute.InterceptServesRegistered | download-worker.js:18-34 | in a reachable world, the answer reads from the open, uncancelled stream registered under the requested id, with the headers the `Headers` object holds for that registration |
| FetchRoute.InterceptHeaders | download-worker.js:21-34 | an answer's headers carry the registered type (stripped of surrounding whitespace) or the default, line 25's disposition unchanged, no caching, no sniffing, and a `Content-Length` exactly when the size is non-zero, which reads back as the size |
| FetchRoute.InterceptAfterRegister | download-worker.js:11-34 | right after a registration whose filename and content type the `Headers` constructor takes, a request addressed to the id is answered from the new stream with the registration's headers |
| FetchRoute.InterceptAfterFinish | download-worker.js:18-20 | after a close, abort or consumer cancel of the id, requests for it are no longer answered |
| FetchRoute.InterceptAddressed | download-worker.js:13-20 | every answered request path that begins with a slash has the form base + `/stream-download/` + id + rest, with the id registered |
| FetchRoute.NonLatinNameRefused | download-worker.js:23-28 | as written, a transfer registered with the filename `报.pdf` is registered and addressed, yet its request is never answered |
| FetchRoute.InterceptSafe | download-worker.js:11-34 | corrected handler: an answer always reads from a stream that exists; InterceptSafeIff and InterceptSafeExtends state when it answers |
| FetchRoute.InterceptSafeIff | download-worker.js:11-34 | corrected handler: a request is answered exactly when its path contains `/stream-download/`, it names a registered id, and the content type is acceptable, whatever the filename |
| FetchRoute.InterceptSafeExtends | download-worker.js:11-34 | corrected handler: it answers every request the handler as written answers, from the same stream |
| FetchRoute.InterceptSafeAfterRegister | download-worker.js:11-34 | corrected handler: right after a registration with an acceptable content type, a request addressed to the id is answered from the new stream |
| FetchRoute.NonLatinNameServedSafely | download-worker.js:23-28 | corrected handler: the transfer named `报.pdf` is served, from its stream |

## Left out

- The `install` and `activate` handlers (lines 3-9) only manage the worker's lifecycle and touch no transfer state.
- `notifyClients` (lines 40-46) is modelled as appending to a log of broadcast messages. Client discovery, `postMessage` delivery and its asynchrony are not modelled.
- `URL` parsing, `Response` and `respondWith` are host APIs. A request is represented by its path, and a response by its stream handle and header list. Of `Headers`, only the checking and whitespace-stripping of values is modelled; its header names are constants the Fetch standard accepts, so name validation is left out.
- The browser pulls a new stream once as soon as its `start` has run (line 58 uses the default strategy, whose high-water mark is 1), before any reader attaches. The model does not force that pull: callbacks are events in any order, so runs without it are also covered. RunProperties.ScenarioB puts the first pull in explicitly.
- `ReadableStream` internals are abstracted as a chunk queue plus a status. Left out with them: promise scheduling, back-pressure, the rule that a stream can be read only once, and the browser's rules on when `pull` and `cancel` are called. Callbacks are events in any order.
- The `pull` promise (lines 63-81) is modelled as a waiting flag on the entry. Resolving it on push (lines 101-104) is modelled as clearing that flag.
- The `pendingPullResolver` variable declared at line 56 is never read or written afterwards, so it has no counterpart.
- `controller` is always set, because the stream's `start` runs synchronously in the constructor. The `controller` tests of lines 99, 111 and 124 are therefore modelled as always true.
- `console.error` logging in the `catch` blocks (lines 115 and 128) is left out. The state effect, that the entry is still removed, is modelled.
- Messages whose `type` is none of the four cases fall through the switch and change nothing. The event type has no case for them.
- The conversion `new Uint8Array(payload)` is not modelled. A chunk is already a sequence of bytes.
- Header names are compared exactly, and in the order they are inserted. Case-insensitive lookup is left out, and so is the iteration order of `Headers`.
- Transfers.ReasonText: only a missing or empty string reason becomes `User cancelled`. Other falsy values, and `toString` of non-string reasons, are not modelled.
- ResponseHeaders.Build: the size is a natural number up to 2^53, or absent. Negative, fractional, non-numeric and larger sizes are not modelled, because their `Content-Length` text depends on JavaScript number formatting.
- Decimal.FromNat: matches JavaScript's `String` only for whole numbers up to 2^53; every size reaching it is bounded so (`Base.Size`). Above 2^53 `String` writes the shortest digits that denote the same number (2^64 is written `18446744073709552000`), and from 10^21 on it uses exponent form, so the model's numeral would differ from the program's; such sizes are not modelled.
- ResponseHeaders.ParseDisposition ends the quoted filename at its first quote and ignores backslash escapes. ResponseHeaders.ReadQuoted is the quoted-string reader of section 5.6.4 of RFC 9110; under it a filename with a backslash can read back differently (see "## Findings").
- A `filename` that is not a string makes line 25 throw at `replace`; the model's filename is always a string.
- JavaScript strings are UTF-16. The model's strings are sequences of Unicode scalar values, so lone surrogates (on which `encodeURIComponent` throws) are out of scope.
- FetchRoute.InterceptIff: a stream can be read only once. A second request for the same id, while the first response holds the stream, makes `new Response` at line 34 throw, so it is not answered; the model answers every such request from the same stream.
- UriComponent.EncodeAlphabet: the `filename*` value is not strictly an RFC 8187 value, because `'`, `(`, `)` and `*` are left unescaped. The model states this rather than assuming conformance.

## Findings

| source | as written | input that shows it | evidently intended | confidence | as-written member | corrected member |
|---|---|---|---|---|---|---|
| download-worker.js:23-28 | the filename, minus its quotes, goes into the quoted `filename` parameter, so the `Headers` constructor throws on any character above U+00FF (or NUL, CR, LF) and the request is never answered | registering id `A` with filename `报.pdf`, then requesting `/stream-download/A` | every registered transfer is served; the quoted part carries an ASCII fallback, and `filename*` carries the full name it exists for | medium: follows from the Fetch standard's header-value rules; not executed | FetchRoute.NonLatinNameRefused | FetchRoute.InterceptSafeIff |
| download-worker.js:25 | only quotes are removed from the quoted filename, so a backslash stays unescaped; a trailing one escapes the closing quote | filename `a\`, giving `filename="a\"; filename*=UTF-8''a%5C` | backslashes and quotes in the quoted part are escaped, so it reads back as a name | medium: depends on the reader honouring RFC 9110 quoted-pairs; not executed | ResponseHeaders.TrailingBackslashUnterminated | ResponseHeaders.SafeDispositionReadsBack |

=== FILE: base.dfy ===
/** Small shared vocabulary: optional values, bytes and byte chunks. */
module Base {

  /** A value that may be missing (JavaScript `undefined`/`null`, or a failed lookup). */
  datatype Option<T> = None | Some(value: T)

  /** An octet, as held by a `Uint8Array`. */
  type Byte = b: int | 0 <= b < 256

  /** A transfer size. The size arrives as a JavaScript number and reaches the
      `Content-Length` header through `String`. Up to 2^53 every whole number is a number
      and `String` writes its exact digits; above it `String` writes the shortest digits
      that denote the same number (2^64 becomes `18446744073709552000`), so sizes are
      bounded here. */
  type Size = n: nat | n <= 9_007_199_254_740_992

  /** One payload of a `PUSH_DATA` message. */
  type Chunk = seq<Byte>

  /** The bytes of a sequence of chunks, in order. */
  function Flatten(cs: seq<Chunk>): (r: seq<Byte>)
    ensures |cs| == 0 ==> r == []
  {
    if |cs| == 0 then [] else Flatten(cs[..|cs| - 1]) + cs[|cs| - 1]
  }

  /** Appending one chunk appends exactly its bytes. */
  lemma FlattenSnoc(cs: seq<Chunk>, c: Chunk)
    ensures Flatten(cs + [c]) == Flatten(cs) + c
  {
    assert (cs + [c])[..|cs|] == cs;
  }

  /** Flattening distributes over concatenation of chunk lists. */
  lemma {:induction false} FlattenAppend(xs: seq<Chunk>, ys: seq<Chunk>)
    ensures Flatten(xs + ys) == Flatten(xs) + Flatten(ys)
    decreases |ys|
  {
    if |ys| == 0 {
      assert xs + ys == xs;
    } else {
      var init := ys[..|ys| - 1];
      var last := ys[|ys| - 1];
      assert ys == init + [last];
      assert xs + ys == (xs + init) + [last];
      FlattenSnoc(xs + init, last);
      FlattenAppend(xs, init);
      FlattenSnoc(init, last);
    }
  }

  /** Concatenation is associative. */
  lemma ConcatAssoc<T>(x: seq<T>, y: seq<T>, z: seq<T>)
    ensures x + (y + z) == (x + y) + z
  {
  }

  /** A sequence is its first `n` elements followed by the rest; the empty sequence is a unit. */
  lemma TakeDrop<T>(s: seq<T>, n: nat)
    requires n <= |s|
    ensures s[..n] + s[n..] == s
    ensures [] + s == s && s + [] == s
  {
  }

  /** Storing a key's own value again leaves a map as it was. */
  lemma MapSelfUpdate<K, V>(m: map<K, V>, k: K, v: V)
    requires k in m && m[k] == v
    ensures m[k := v] == m
  {
  }
}

=== FILE: decimal.dfy ===
/** Decimal rendering of a natural number for the `Content-Length` header value, together
    with the reading back. For whole numbers up to 2^53 this is what JavaScript's `String`
    writes; the sizes that reach it are bounded accordingly (`Base.Size`). */
module Decimal {
  import opened Base

  predicate IsDigit(c: char) {
    '0' <= c <= '9'
  }

  predicate AllDigits(s: string) {
    forall i :: 0 <= i < |s| ==> IsDigit(s[i])
  }

  /** A digit string without superfluous leading zeros. */
  predicate Canonical(s: string) {
    |s| > 0 && AllDigits(s) && (|s| == 1 || s[0] != '0')
  }

  function DigitChar(d: nat): (c: char)
    requires d < 10
    ensures IsDigit(c)
  {
    (d + '0' as int) as char
  }

  function DigitValue(c: char): nat
    requires IsDigit(c)
  {
    c as int - '0' as int
  }

  /** The value denoted by a digit string, most significant digit first. */
  function Value(s: string): nat
    requires AllDigits(s)
  {
    if |s| == 0 then 0 else Value(s[..|s| - 1]) * 10 + DigitValue(s[|s| - 1])
  }

  /** The decimal numeral of `n`: no sign, no leading zero, no exponent. */
  function FromNat(n: nat): (s: string)
    ensures Canonical(s)
  {
    if n < 10 then [DigitChar(n)]
    else
      var prefix := FromNat(n / 10);
      assert prefix[0] != '0' || |prefix| == 1;
      prefix + [DigitChar(n % 10)]
  }

  /** Reads a header value back as a number; anything but a non-empty digit string is refused. */
  function Parse(s: string): Option<nat> {
    if |s| > 0 && AllDigits(s) then Some(Value(s)) else None
  }

  /** Rendering then reading gives the number back. */
  lemma {:induction false} ParseFromNat(n: nat)
    ensures Parse(FromNat(n)) == Some(n)
  {
    var s := FromNat(n);
    if n >= 10 {
      var prefix := FromNat(n / 10);
      assert s[..|s| - 1] == prefix;
      ParseFromNat(n / 10);
      assert Value(s) == (n / 10) * 10 + n % 10;
    } else {
      assert s[..0] == [];
      assert Value(s) == n;
    }
  }

  lemma {:induction false} LeadingNonZeroIsPositive(s: string)
    requires |s| > 0 && AllDigits(s) && s[0] != '0'
    ensures Value(s) >= 1
    decreases |s|
  {
    if |s| > 1 {
      assert s[..|s| - 1][0] == s[0];
      LeadingNonZeroIsPositive(s[..|s| - 1]);
    }
  }

  /** Reading then rendering gives the canonical string back: rendering is onto the canonical strings. */
  lemma {:induction false} FromNatValue(s: string)
    requires Canonical(s)
    ensures FromNat(Value(s)) == s
    decreases |s|
  {
    if |s| > 1 {
      var prefix := s[..|s| - 1];
      var d := DigitValue(s[|s| - 1]);
      assert prefix[0] == s[0];
      LeadingNonZeroIsPositive(prefix);
      assert Canonical(prefix);
      FromNatValue(prefix);
      var n := Value(s);
      assert n == Value(prefix) * 10 + d;
      assert n / 10 == Value(prefix) && n % 10 == d;
      assert DigitChar(d) == s[|s| - 1];
      assert s == prefix + [s[|s| - 1]];
    }
  }
}

=== FILE: delivery_path.dfy ===
/** Recognising the delivery endpoint (download-worker.js, lines 13-17): a request path
    carrying `/stream-download/` names a transfer by the path segment that follows the
    first `stream-download` segment. */
module DeliveryPath {
  import opened Base

  const Marker := "stream-download"
  const Guard := "/stream-download/"

  /** `s.includes(sub)`: `sub` occurs somewhere in `s` (ContainsInfix and ContainsSplit show
      that this is exactly `s == a + sub + b` for some `a` and `b`). */
  predicate Contains(s: string, sub: string): (b: bool)
    ensures b ==> |sub| <= |s|
    ensures |sub| == 0 ==> b
    decreases |s|
  {
    (|s| >= |sub| && s[..|sub|] == sub) || (|s| > 0 && Contains(s[1..], sub))
  }

  lemma {:induction false} ContainsInfix(a: string, sub: string, b: string)
    ensures Contains(a + sub + b, sub)
  {
    if |a| == 0 {
      assert (a + sub + b)[..|sub|] == sub;
    } else {
      assert (a + sub + b)[1..] == a[1..] + sub + b;
      ContainsInfix(a[1..], sub, b);
    }
  }

  lemma {:induction false} ContainsSplit(s: string, sub: string) returns (a: string, b: string)
    requires Contains(s, sub)
    ensures s == a + sub + b
    decreases |s|
  {
    if |s| >= |sub| && s[..|sub|] == sub {
      a, b := [], s[|sub|..];
      assert s == s[..|sub|] + s[|sub|..];
    } else {
      var a', b' := ContainsSplit(s[1..], sub);
      a, b := [s[0]] + a', b';
      assert s == [s[0]] + s[1..];
    }
  }

  /** `s.split('/')`: the pieces between slashes, always at least one. */
  function Split(s: string): (parts: seq<string>)
    ensures |parts| >= 1
    ensures forall i :: 0 <= i < |parts| ==> '/' !in parts[i]
    decreases |s|
  {
    if |s| == 0 then [""]
    else if s[0] == '/' then [""] + Split(s[1..])
    else
      var rest := Split(s[1..]);
      [[s[0]] + rest[0]] + rest[1..]
  }

  /** `parts.join('/')`. */
  function Join(parts: seq<string>): string
    requires |parts| >= 1
  {
    if |parts| == 1 then parts[0] else parts[0] + "/" + Join(parts[1..])
  }

  /** Splitting at a slash splits the two sides independently. */
  lemma {:induction false} SplitAppend(x: string, y: string)
    ensures Split(x + "/" + y) == Split(x) + Split(y)
    decreases |x|
  {
    if |x| == 0 {
      assert x + "/" + y == "/" + y;
      SplitCons('/', y);
    } else {
      var t := x[1..] + "/" + y;
      assert x + "/" + y == [x[0]] + t;
      assert x == [x[0]] + x[1..];
      SplitAppend(x[1..], y);
      SplitCons(x[0], t);
      SplitCons(x[0], x[1..]);
      var a, b := Split(x[1..]), Split(y);
      var head := if x[0] == '/' then [""] else [[x[0]] + a[0]];
      var tail := if x[0] == '/' then a else a[1..];
      if x[0] != '/' {
        assert (a + b)[0] == a[0];
        assert (a + b)[1..] == a[1..] + b;
      }
      assert Split(x + "/" + y) == head + (tail + b);
      assert Split(x) == head + tail;
      ConcatAssoc(head, tail, b);
    }
  }

  /** The segments of a string, read off its first character. */
  lemma SplitCons(c: char, t: string)
    ensures Split([c] + t)
         == if c == '/' then [""] + Split(t) else [[c] + Split(t)[0]] + Split(t)[1..]
  {
    assert ([c] + t)[0] == c;
    assert ([c] + t)[1..] == t;
  }

  /** A slash-free string is a single segment. */
  lemma {:induction false} SplitSegment(w: string)
    requires '/' !in w
    ensures Split(w) == [w]
  {
    if |w| > 0 {
      assert '/' !in w[1..] by {
        forall i | 0 <= i < |w[1..]| ensures w[1..][i] != '/' {
          assert w[1..][i] == w[i + 1];
        }
      }
      SplitSegment(w[1..]);
      assert [w[0]] + w[1..] == w;
    }
  }

  /** Joining the pieces gives the path back. */
  lemma {:induction false} JoinSplit(s: string)
    ensures Join(Split(s)) == s
    decreases |s|
  {
    if |s| > 0 {
      JoinSplit(s[1..]);
      var rest := Split(s[1..]);
      if s[0] == '/' {
        assert Join(Split(s)) == "" + "/" + Join(rest);
      } else if |rest| == 1 {
        assert Join(Split(s)) == [s[0]] + rest[0];
      } else {
        assert Join(Split(s)) == [s[0]] + rest[0] + "/" + Join(rest[1..]);
        assert Join(rest) == rest[0] + "/" + Join(rest[1..]);
      }
      assert s == [s[0]] + s[1..];
    }
  }

  /** Splitting undoes joining slash-free pieces. */
  lemma {:induction false} SplitJoin(parts: seq<string>)
    requires |parts| >= 1
    requires forall i :: 0 <= i < |parts| ==> '/' !in parts[i]
    ensures Split(Join(parts)) == parts
  {
    SplitSegment(parts[0]);
    if |parts| > 1 {
      SplitJoin(parts[1..]);
      SplitAppend(parts[0], Join(parts[1..]));
      assert [parts[0]] + parts[1..] == parts;
    }
  }

  lemma {:induction false} JoinAppend(xs: seq<string>, ys: seq<string>)
    requires |xs| >= 1 && |ys| >= 1
    ensures Join(xs + ys) == Join(xs) + "/" + Join(ys)
  {
    if |xs| == 1 {
      assert (xs + ys)[1..] == ys;
    } else {
      assert (xs + ys)[1..] == xs[1..] + ys;
      JoinAppend(xs[1..], ys);
    }
  }

  /** `parts.indexOf(w)`: the first position holding `w`, or -1. */
  function IndexOf(parts: seq<string>, w: string): (k: int)
    ensures -1 <= k < |parts|
    ensures k == -1 <==> w !in parts
    ensures k >= 0 ==> parts[k] == w && w !in parts[..k]
  {
    if |parts| == 0 then -1
    else if parts[0] == w then 0
    else
      var k := IndexOf(parts[1..], w);
      if k == -1 then -1
      else
        assert parts[..k + 1] == [parts[0]] + parts[1..][..k];
        k + 1
  }

  /** The id a request path addresses, as lines 13-17 compute it, or None when the worker
      leaves the request alone. */
  function ExtractId(path: string): (r: Option<string>)
    ensures r.Some? ==> '/' !in r.value
  {
    if !Contains(path, Guard) then None
    else
      var parts := Split(path);
      var k := IndexOf(parts, Marker);
      if k != -1 && |parts| > k + 1 then Some(parts[k + 1]) else None
  }

  /** A slash-free word between two slashes is a segment of its own. */
  lemma SplitAround(a: string, m: string, b: string)
    requires '/' !in m
    ensures Split(a + "/" + m + "/" + b) == Split(a) + [m] + Split(b)
  {
    assert a + "/" + m + "/" + b == a + "/" + (m + "/" + b);
    SplitAppend(a, m + "/" + b);
    SplitAppend(m, b);
    SplitSegment(m);
  }

  lemma GuardShape()
    ensures '/' !in Marker
    ensures Guard == "/" + Marker + "/"
  {
  }

  lemma GuardAssoc(a: string, x: string, r: string)
    ensures a + "/" + Marker + "/" + (x + r) == a + Guard + x + r
  {
    GuardShape();
  }

  /** When the guard of line 13 holds, the check of line 16 always passes: some
      `stream-download` segment is followed by another, so the first one is too. */
  lemma GuardImpliesIndex(path: string)
    requires Contains(path, Guard)
    ensures IndexOf(Split(path), Marker) != -1
    ensures |Split(path)| > IndexOf(Split(path), Marker) + 1
  {
    var a, b := ContainsSplit(path, Guard);
    GuardShape();
    assert path == a + "/" + Marker + "/" + b;
    SplitAround(a, Marker, b);
    var parts := Split(path);
    var i := |Split(a)|;
    assert parts[i] == Marker && i + 1 < |parts|;
    var k := IndexOf(parts, Marker);
    assert k <= i;
  }

  /** An id is extracted exactly when the path contains `/stream-download/`. */
  lemma ExtractIdDefined(path: string)
    ensures ExtractId(path).Some? <==> Contains(path, Guard)
  {
    if Contains(path, Guard) {
      GuardImpliesIndex(path);
    }
  }

  /** An extracted id is the segment right after the first `stream-download` segment. */
  lemma ExtractIdFollowsMarker(path: string) returns (k: nat)
    requires ExtractId(path).Some?
    ensures k + 1 < |Split(path)|
    ensures Split(path)[k] == Marker && Marker !in Split(path)[..k]
    ensures ExtractId(path).value == Split(path)[k + 1]
  {
    k := IndexOf(Split(path), Marker);
  }

  /** A path of the form base + `/stream-download/` + id + rest, with no `stream-download`
      segment in the base, a slash-free id, and a rest that is empty or starts a new segment. */
  predicate Addresses(path: string, base: string, id: string, rest: string) {
    && path == base + Guard + id + rest
    && Marker !in Split(base)
    && '/' !in id
    && (rest == [] || rest[0] == '/')
  }

  /** The segments of id + rest begin with the id. */
  lemma SplitIdRest(id: string, rest: string)
    requires '/' !in id
    requires rest == [] || rest[0] == '/'
    ensures Split(id + rest)[0] == id
  {
    SplitSegment(id);
    if rest != [] {
      assert id + rest == id + "/" + rest[1..];
      SplitAppend(id, rest[1..]);
    } else {
      assert id + rest == id;
    }
  }

  /** A delivery locator built this way is routed to its id. */
  lemma ExtractIdAddressed(path: string, base: string, id: string, rest: string)
    requires Addresses(path, base, id, rest)
    ensures ExtractId(path) == Some(id)
  {
    AddressedParts(path, base, id, rest);
    var parts := Split(path);
    var k := |Split(base)|;
    assert parts[..k] == Split(base);
    assert parts[k + 1] == id;
    IndexOfAt(parts, Marker, k);
  }

  /** An address passes the guard, and its segments are those of the base, the marker,
      then the id's. */
  lemma AddressedParts(path: string, base: string, id: string, rest: string)
    requires Addresses(path, base, id, rest)
    ensures Contains(path, Guard)
    ensures Split(path) == Split(base) + [Marker] + Split(id + rest)
    ensures Split(id + rest)[0] == id
  {
    GuardShape();
    assert path == base + Guard + (id + rest);
    ContainsInfix(base, Guard, id + rest);
    GuardAssoc(base, id, rest);
    SplitAround(base, Marker, id + rest);
    SplitIdRest(id, rest);
  }

  /** The first occurrence is where `IndexOf` points. */
  lemma IndexOfAt(parts: seq<string>, w: string, k: nat)
    requires k < |parts| && parts[k] == w && w !in parts[..k]
    ensures IndexOf(parts, w) == k
  {
  }

  /** A path that begins with a slash has an empty first segment. */
  lemma LeadingSlash(path: string)
    requires |path| > 0 && path[0] == '/'
    ensures Split(path)[0] == ""
  {
    assert path == "" + "/" + path[1..];
    SplitAppend("", path[1..]);
  }

  /** The first `stream-download` segment, if it is not the first nor the last segment,
      cuts the path into an address. */
  lemma SegmentsAddress(path: string, k: nat) returns (base: string, rest: string)
    requires 1 <= k && k + 1 < |Split(path)|
    requires Split(path)[k] == Marker && Marker !in Split(path)[..k]
    ensures Addresses(path, base, Split(path)[k + 1], rest)
  {
    var parts := Split(path);
    var id := parts[k + 1];
    JoinSplit(path);
    base := Join(parts[..k]);
    SplitJoin(parts[..k]);
    rest := JoinRest(parts, k);
    GuardAssoc(base, id, rest);
  }

  /** Conversely, for a request path (which begins with a slash), every extracted id is
      addressed that way: nothing else is ever routed. */
  lemma ExtractIdAddresses(path: string) returns (base: string, rest: string)
    requires |path| > 0 && path[0] == '/'
    requires ExtractId(path).Some?
    ensures Addresses(path, base, ExtractId(path).value, rest)
  {
    var parts := Split(path);
    var k := IndexOf(parts, Marker);
    LeadingSlash(path);
    GuardShape();
    assert k >= 1;
    base, rest := SegmentsAddress(path, k);
  }

  /** Rejoining the segments around position k of a split path. */
  lemma JoinRest(parts: seq<string>, k: nat) returns (rest: string)
    requires 1 <= k && k + 1 < |parts|
    ensures Join(parts) == Join(parts[..k]) + "/" + parts[k] + "/" + (parts[k + 1] + rest)
    ensures rest == [] || rest[0] == '/'
  {
    assert parts == parts[..k] + parts[k..];
    JoinAppend(parts[..k], parts[k..]);
    assert parts[k..] == [parts[k]] + parts[k + 1..];
    JoinAppend([parts[k]], parts[k + 1..]);
    if k + 2 == |parts| {
      rest := [];
      assert parts[k + 1..] == [parts[k + 1]];
    } else {
      rest := "/" + Join(parts[k + 2..]);
      assert parts[k + 1..] == [parts[k + 1]] + parts[k + 2..];
      JoinAppend([parts[k + 1]], parts[k + 2..]);
    }
  }
}

=== FILE: fetch_route.dfy ===
/** The `fetch` handler (download-worker.js, lines 11-38): a request whose path addresses a
    registered transfer is answered with that transfer's stream and the synthesized headers;
    every other request is left to the network. The handler reads the registry and changes
    nothing. */
module FetchRoute {
  import opened Base
  import opened Transfers
  import DeliveryPath
  import ResponseHeaders
  import Decimal
  import HeaderValues

  /** The `Response` of line 34: the stream it reads from, by handle, and its headers. */
  datatype Response = Response(stream: nat, headers: seq<ResponseHeaders.Header>)

  /** The headers for a registration's metadata (lines 23-32), before the `Headers` object
      checks them: the content type and the disposition head the list. */
  function HeadersFor(meta: Metadata): (hs: seq<ResponseHeaders.Header>)
    ensures ResponseHeaders.Lookup(hs, "Content-Type") == Some(ResponseHeaders.ContentTypeValue(meta.contentType))
    ensures ResponseHeaders.Lookup(hs, "Content-Disposition") == Some(ResponseHeaders.ContentDisposition(meta.filename))
  {
    ResponseHeaders.AssembleLookups(ResponseHeaders.ContentDisposition(meta.filename), meta.contentType, meta.size);
    ResponseHeaders.Build(meta.filename, meta.contentType, meta.size)
  }

  /** The metadata whose headers the `Headers` constructor of line 23 takes without throwing:
      a filename whose every character fits in a byte and is not NUL, CR or LF, and an
      acceptable content type. */
  predicate Servable(meta: Metadata): (ok: bool)
    ensures ok <==> ResponseHeaders.Construct(HeadersFor(meta)).Some?
  {
    ResponseHeaders.BuildAccepted(meta.filename, meta.contentType, meta.size);
    HeaderValues.Clean(meta.filename) && HeaderValues.Accepted(ResponseHeaders.ContentTypeValue(meta.contentType))
  }

  /** What the handler does with a request for `path`: `Some` response when it calls
      `respondWith`, `None` when it returns without answering or throws before answering,
      which leaves the request to the network either way. */
  function Intercept(w: World, path: string): (r: Option<Response>)
    ensures r.Some? ==> r.value.stream < |w.streams|
  {
    match DeliveryPath.ExtractId(path)
    case None => None
    case Some(id) =>
      if id !in w.registry then None
      else
        var e := w.registry[id];
        match ResponseHeaders.Construct(HeadersFor(e.meta))
        case None => None
        case Some(hs) => Some(Response(e.stream, hs))
  }

  /** A request is answered exactly when its path contains `/stream-download/`, the id it
      names is registered, and that registration's headers can be built; no other request
      is touched. */
  lemma InterceptIff(w: World, path: string)
    ensures Intercept(w, path).Some?
        <==> DeliveryPath.Contains(path, DeliveryPath.Guard)
             && DeliveryPath.ExtractId(path).Some? && DeliveryPath.ExtractId(path).value in w.registry
             && Servable(w.registry[DeliveryPath.ExtractId(path).value].meta)
  {
    DeliveryPath.ExtractIdDefined(path);
    if DeliveryPath.ExtractId(path).Some? && DeliveryPath.ExtractId(path).value in w.registry {
      var meta := w.registry[DeliveryPath.ExtractId(path).value].meta;
      ResponseHeaders.BuildAccepted(meta.filename, meta.contentType, meta.size);
    }
  }

  /** In a reachable world the answer reads from the open, uncancelled stream that was
      registered under the requested id, with that registration's headers as the `Headers`
      object holds them. */
  lemma InterceptServesRegistered(w: World, path: string)
    requires Consistent(w)
    requires Intercept(w, path).Some?
    ensures var id := DeliveryPath.ExtractId(path).value;
            var r := Intercept(w, path).value;
            && id in w.registry
            && w.streams[r.stream].uuid == id
            && w.streams[r.stream].sink.status == Open
            && !w.streams[r.stream].cancelled
            && ResponseHeaders.Construct(HeadersFor(w.registry[id].meta)) == Some(r.headers)
  {
  }

  /** The headers of an answer: the registered content type (normalized) or the default,
      the disposition of line 25 unchanged, caching and sniffing off, and a `Content-Length`
      exactly when the registered size is non-zero, that reads back as the size. */
  lemma InterceptHeaders(w: World, path: string)
    requires Intercept(w, path).Some?
    ensures var meta := w.registry[DeliveryPath.ExtractId(path).value].meta;
            var hs := Intercept(w, path).value.headers;
            && ResponseHeaders.Lookup(hs, "Content-Type")
               == Some(HeaderValues.Normalize(ResponseHeaders.ContentTypeValue(meta.contentType)))
            && ResponseHeaders.Lookup(hs, "Content-Disposition") == Some(ResponseHeaders.ContentDisposition(meta.filename))
            && ResponseHeaders.Lookup(hs, "Cache-Control") == Some("no-cache")
            && ResponseHeaders.Lookup(hs, "X-Content-Type-Options") == Some("nosniff")
            && (ResponseHeaders.Lookup(hs, "Content-Length").Some? <==> meta.size.Some? && meta.size.value != 0)
            && (ResponseHeaders.Lookup(hs, "Content-Length").Some? ==>
                  Decimal.Parse(ResponseHeaders.Lookup(hs, "Content-Length").value) == Some(meta.size.value as nat))
  {
    var meta := w.registry[DeliveryPath.ExtractId(path).value].meta;
    var hs := Intercept(w, path).value.headers;
    ConstructedNamedHeaders(meta, hs);
    ConstructedFixedHeaders(meta, hs);
  }

  /** The checked headers keep the content type (normalized) and the disposition. */
  lemma ConstructedNamedHeaders(meta: Metadata, hs: seq<ResponseHeaders.Header>)
    requires ResponseHeaders.Construct(HeadersFor(meta)) == Some(hs)
    ensures ResponseHeaders.Lookup(hs, "Content-Type")
         == Some(HeaderValues.Normalize(ResponseHeaders.ContentTypeValue(meta.contentType)))
    ensures ResponseHeaders.Lookup(hs, "Content-Disposition") == Some(ResponseHeaders.ContentDisposition(meta.filename))
  {
    ResponseHeaders.LookupConstruct(HeadersFor(meta), "Content-Type");
    ResponseHeaders.LookupConstruct(HeadersFor(meta), "Content-Disposition");
    ResponseHeaders.DispositionNormal(meta.filename);
  }

  /** The checked headers keep the fixed headers and the length as they were built. */
  lemma ConstructedFixedHeaders(meta: Metadata, hs: seq<ResponseHeaders.Header>)
    requires ResponseHeaders.Construct(HeadersFor(meta)) == Some(hs)
    ensures ResponseHeaders.Lookup(hs, "Cache-Control") == Some("no-cache")
    ensures ResponseHeaders.Lookup(hs, "X-Content-Type-Options") == Some("nosniff")
    ensures ResponseHeaders.Lookup(hs, "Content-Length").Some? <==> meta.size.Some? && meta.size.value != 0
    ensures ResponseHeaders.Lookup(hs, "Content-Length").Some? ==>
              Decimal.Parse(ResponseHeaders.Lookup(hs, "Content-Length").value) == Some(meta.size.value as nat)
  {
    ResponseHeaders.BuildContentLength(meta.filename, meta.contentType, meta.size);
    var built := HeadersFor(meta);
    ResponseHeaders.BuildFixedHeaders(meta.filename, meta.contentType, meta.size);
    ResponseHeaders.FixedValuesAccepted(Some(1));
    LookupKept(built, hs, "Cache-Control");
    LookupKept(built, hs, "X-Content-Type-Options");
    ConstructedLength(meta, hs);
  }

  /** The checked headers keep the length header as it was built. */
  lemma ConstructedLength(meta: Metadata, hs: seq<ResponseHeaders.Header>)
    requires ResponseHeaders.Construct(HeadersFor(meta)) == Some(hs)
    ensures ResponseHeaders.Lookup(hs, "Content-Length") == ResponseHeaders.Lookup(HeadersFor(meta), "Content-Length")
  {
    var built := HeadersFor(meta);
    ResponseHeaders.BuildContentLength(meta.filename, meta.contentType, meta.size);
    if ResponseHeaders.HasLength(meta.size) {
      ResponseHeaders.FixedValuesAccepted(meta.size);
    }
    LookupKept(built, hs, "Content-Length");
  }

  /** A header whose value the `Headers` object does not change is found as it was built. */
  lemma LookupKept(built: seq<ResponseHeaders.Header>, hs: seq<ResponseHeaders.Header>, name: string)
    requires ResponseHeaders.Construct(built) == Some(hs)
    requires ResponseHeaders.Lookup(built, name).Some? ==>
               HeaderValues.Normalize(ResponseHeaders.Lookup(built, name).value) == ResponseHeaders.Lookup(built, name).value
    ensures ResponseHeaders.Lookup(hs, name) == ResponseHeaders.Lookup(built, name)
  {
    ResponseHeaders.LookupConstruct(built, name);
  }

  /** Right after `REGISTER_STREAM` with servable metadata, a request addressed to the id is
      answered from the stream that registration created, with its metadata's headers. */
  lemma InterceptAfterRegister(w: World, u: Uuid, meta: Metadata, path: string, base: string, rest: string)
    requires DeliveryPath.Addresses(path, base, u, rest)
    requires Servable(meta)
    ensures ResponseHeaders.Construct(HeadersFor(meta)).Some?
    ensures Intercept(Step(w, RegisterStream(u, meta)).next, path)
         == Some(Response(|w.streams|, ResponseHeaders.Construct(HeadersFor(meta)).value))
  {
    DeliveryPath.ExtractIdAddressed(path, base, u, rest);
    ResponseHeaders.BuildAccepted(meta.filename, meta.contentType, meta.size);
  }

  /** Once the transfer is closed, aborted or cancelled, requests for its id go to the
      network again. */
  lemma InterceptAfterFinish(w: World, ev: Event, path: string)
    requires ev.CloseStream? || ev.AbortStream? || (ev.Cancel? && ev.handle < |w.streams|)
    requires DeliveryPath.ExtractId(path)
          == Some(if ev.Cancel? then w.streams[ev.handle].uuid else ev.uuid)
    ensures Intercept(Step(w, ev).next, path).None?
  {
    var id := DeliveryPath.ExtractId(path).value;
    var w' := Step(w, ev).next;
    assert id !in w'.registry;
  }

  /** Every request path (one that begins with a slash) that is answered has the shape
      base + `/stream-download/` + id + rest, with the id registered. */
  lemma InterceptAddressed(w: World, path: string) returns (base: string, id: string, rest: string)
    requires |path| > 0 && path[0] == '/'
    requires Intercept(w, path).Some?
    ensures DeliveryPath.Addresses(path, base, id, rest)
    ensures id in w.registry && Intercept(w, path).value.stream == w.registry[id].stream
  {
    id := DeliveryPath.ExtractId(path).value;
    base, rest := DeliveryPath.ExtractIdAddresses(path);
  }

  /** As written, a transfer registered under a Chinese filename is never served: the
      request for it reaches the handler, the id is registered, and the `Headers`
      constructor throws on the disposition before `respondWith`. */
  lemma NonLatinNameRefused()
    ensures var w := Step(Init, RegisterStream("A", Metadata("\U{62a5}.pdf", None, None))).next;
            && "A" in w.registry
            && DeliveryPath.ExtractId("/stream-download/A") == Some("A")
            && Intercept(w, "/stream-download/A").None?
  {
    DeliveryPath.SplitSegment("");
    DeliveryPath.ExtractIdAddressed("/stream-download/A", "", "A", "");
    ResponseHeaders.BuildAccepted("\U{62a5}.pdf", None, None);
    assert !HeaderValues.IsByte("\U{62a5}.pdf"[0]);
  }

  /** The headers with the safe disposition in place of line 25's. */
  function SafeHeadersFor(meta: Metadata): (hs: seq<ResponseHeaders.Header>)
    ensures ResponseHeaders.Lookup(hs, "Content-Disposition") == Some(ResponseHeaders.SafeDisposition(meta.filename))
  {
    ResponseHeaders.AssembleLookups(ResponseHeaders.SafeDisposition(meta.filename), meta.contentType, meta.size);
    ResponseHeaders.BuildSafe(meta.filename, meta.contentType, meta.size)
  }

  /** The handler with the safe disposition. */
  function InterceptSafe(w: World, path: string): (r: Option<Response>)
    ensures r.Some? ==> r.value.stream < |w.streams|
  {
    match DeliveryPath.ExtractId(path)
    case None => None
    case Some(id) =>
      if id !in w.registry then None
      else
        var e := w.registry[id];
        match ResponseHeaders.Construct(SafeHeadersFor(e.meta))
        case None => None
        case Some(hs) => Some(Response(e.stream, hs))
  }

  /** With the safe disposition every registered transfer is served whatever its filename;
      only an unacceptable content type still sends the request to the network. */
  lemma InterceptSafeIff(w: World, path: string)
    ensures InterceptSafe(w, path).Some?
        <==> DeliveryPath.Contains(path, DeliveryPath.Guard)
             && DeliveryPath.ExtractId(path).Some? && DeliveryPath.ExtractId(path).value in w.registry
             && HeaderValues.Accepted(ResponseHeaders.ContentTypeValue(w.registry[DeliveryPath.ExtractId(path).value].meta.contentType))
  {
    DeliveryPath.ExtractIdDefined(path);
    if DeliveryPath.ExtractId(path).Some? && DeliveryPath.ExtractId(path).value in w.registry {
      var meta := w.registry[DeliveryPath.ExtractId(path).value].meta;
      ResponseHeaders.BuildSafeAccepted(meta.filename, meta.contentType, meta.size);
    }
  }

  /** The safe handler answers wherever line 25's does, from the same stream. */
  lemma InterceptSafeExtends(w: World, path: string)
    requires Intercept(w, path).Some?
    ensures InterceptSafe(w, path).Some?
    ensures InterceptSafe(w, path).value.stream == Intercept(w, path).value.stream
  {
    InterceptIff(w, path);
    InterceptSafeIff(w, path);
  }

  /** Right after `REGISTER_STREAM` with an acceptable content type, the safe handler
      answers a request addressed to the id from the stream that registration created. */
  lemma InterceptSafeAfterRegister(w: World, u: Uuid, meta: Metadata, path: string, base: string, rest: string)
    requires DeliveryPath.Addresses(path, base, u, rest)
    requires HeaderValues.Accepted(ResponseHeaders.ContentTypeValue(meta.contentType))
    ensures ResponseHeaders.Construct(SafeHeadersFor(meta)).Some?
    ensures InterceptSafe(Step(w, RegisterStream(u, meta)).next, path)
         == Some(Response(|w.streams|, ResponseHeaders.Construct(SafeHeadersFor(meta)).value))
  {
    DeliveryPath.ExtractIdAddressed(path, base, u, rest);
    ResponseHeaders.BuildSafeAccepted(meta.filename, meta.contentType, meta.size);
  }

  /** The Chinese filename refused above is served with the safe disposition. */
  lemma NonLatinNameServedSafely()
    ensures var w := Step(Init, RegisterStream("A", Metadata("\U{62a5}.pdf", None, None))).next;
            && InterceptSafe(w, "/stream-download/A").Some?
            && InterceptSafe(w, "/stream-download/A").value.stream == 0
  {
    DeliveryPath.SplitSegment("");
    HeaderValues.VisibleClean(ResponseHeaders.DefaultContentType);
    HeaderValues.AcceptedUnpadded(ResponseHeaders.DefaultContentType);
    InterceptSafeAfterRegister(Init, "A", Metadata("\U{62a5}.pdf", None, None), "/stream-download/A", "", "");
  }
}

=== FILE: header_values.dfy ===
/** What a `Headers` object of the Fetch standard does with a header value handed to its
    constructor or to `append`: the value is first converted to a byte string, which fails
    when a code unit is above 0xFF; it is then normalized by dropping leading and trailing
    HTTP whitespace; and what remains must not contain NUL, CR or LF. A value that fails
    either test makes the call throw a `TypeError`. */
module HeaderValues {

  /** HTTP whitespace: tab, line feed, carriage return and space. */
  predicate IsWhitespace(c: char) {
    c == '\t' || c == '\n' || c == '\r' || c == ' '
  }

  /** A code unit that fits in one byte. */
  predicate IsByte(c: char) {
    c as int <= 0xFF
  }

  /** The characters a normalized header value must not contain. */
  predicate IsForbidden(c: char) {
    c == '\0' || c == '\n' || c == '\r'
  }

  /** Every character may appear anywhere in a header value. */
  predicate Clean(s: string) {
    forall i :: 0 <= i < |s| ==> IsByte(s[i]) && !IsForbidden(s[i])
  }

  /** Neither end is whitespace. */
  predicate Unpadded(s: string) {
    |s| > 0 ==> !IsWhitespace(s[0]) && !IsWhitespace(s[|s| - 1])
  }

  /** Drops leading whitespace: the result is a suffix of `s`, everything dropped is
      whitespace, and the result does not start with whitespace. */
  function TrimStart(s: string): (r: string)
    ensures |r| <= |s| && r == s[|s| - |r|..]
    ensures forall i :: 0 <= i < |s| - |r| ==> IsWhitespace(s[i])
    ensures |r| > 0 ==> !IsWhitespace(r[0])
  {
    if |s| > 0 && IsWhitespace(s[0]) then TrimStart(s[1..]) else s
  }

  /** Drops trailing whitespace: the result is a prefix of `s`, everything dropped is
      whitespace, and the result does not end with whitespace. */
  function TrimEnd(s: string): (r: string)
    ensures |r| <= |s| && r == s[..|r|]
    ensures forall i :: |r| <= i < |s| ==> IsWhitespace(s[i])
    ensures |r| > 0 ==> !IsWhitespace(r[|r| - 1])
  {
    if |s| > 0 && IsWhitespace(s[|s| - 1]) then TrimEnd(s[..|s| - 1]) else s
  }

  /** `r` is the slice of `s` starting at `k`, and everything of `s` around it is whitespace. */
  predicate Trims(s: string, r: string, k: nat) {
    k + |r| <= |s| && r == s[k..k + |r|]
    && (forall i :: 0 <= i < k ==> IsWhitespace(s[i]))
    && (forall i :: k + |r| <= i < |s| ==> IsWhitespace(s[i]))
  }

  /** `r` is `s` with some whitespace dropped from either end. */
  predicate TrimmedFrom(s: string, r: string) {
    exists k: nat | k <= |s| :: Trims(s, r, k)
  }

  /** Normalizing a header value: what is left of it once the whitespace at both ends is
      stripped. */
  function Normalize(s: string): (r: string)
    ensures Unpadded(r)
    ensures |r| <= |s|
    ensures TrimmedFrom(s, r)
  {
    var t := TrimStart(s);
    var r := TrimEnd(t);
    assert |r| > 0 ==> r[0] == t[0];
    var k := |s| - |t|;
    assert r == s[k..k + |r|];
    assert Trims(s, r, k);
    r
  }

  /** Stripping whitespace from both ends has one outcome: any unpadded slice with only
      whitespace around it is the normalized value. */
  lemma {:induction false} NormalizeUnique(s: string, r: string, k: nat)
    requires Trims(s, r, k) && Unpadded(r)
    ensures Normalize(s) == r
  {
    var n := Normalize(s);
    assert TrimmedFrom(s, n);
    var j: nat :| j <= |s| && Trims(s, n, j);
    if |r| > 0 && |n| > 0 {
      // Each slice starts at the first non-whitespace character and ends at the last one.
      assert r[0] == s[k] && n[0] == s[j];
      assert j == k;
      assert r[|r| - 1] == s[k + |r| - 1] && n[|n| - 1] == s[j + |n| - 1];
      assert |n| == |r|;
    }
  }

  /** A value without whitespace at its ends is already normalized. */
  lemma NormalizeUnpadded(s: string)
    requires Unpadded(s)
    ensures Normalize(s) == s
  {
    assert TrimStart(s) == s;
  }

  /** Normalizing twice is normalizing once. */
  lemma NormalizeIdempotent(s: string)
    ensures Normalize(Normalize(s)) == Normalize(s)
  {
    NormalizeUnpadded(Normalize(s));
  }

  /** Whatever holds of every character of a value holds of every character of its normalized form. */
  lemma NormalizeWithin(v: string, p: char -> bool)
    ensures (forall i :: 0 <= i < |v| ==> p(v[i])) ==> forall i :: 0 <= i < |Normalize(v)| ==> p(Normalize(v)[i])
  {
    var n := Normalize(v);
    assert TrimmedFrom(v, n);
    var k: nat :| k <= |v| && Trims(v, n, k);
    if forall i :: 0 <= i < |v| ==> p(v[i]) {
      forall i | 0 <= i < |n| ensures p(n[i]) {
        assert n[i] == v[k + i];
      }
    }
  }

  /** The value passes both tests, so a `Headers` object takes it without throwing; a clean
      value always passes. */
  predicate Accepted(v: string): (ok: bool)
    ensures Clean(v) ==> ok
  {
    NormalizeWithin(v, c => IsByte(c) && !IsForbidden(c));
    (forall i :: 0 <= i < |v| ==> IsByte(v[i]))
    && (forall i :: 0 <= i < |Normalize(v)| ==> !IsForbidden(Normalize(v)[i]))
  }

  /** What a `Headers` object stores for an accepted value is clean. */
  lemma AcceptedStoresClean(v: string)
    requires Accepted(v)
    ensures Clean(Normalize(v))
  {
    NormalizeWithin(v, IsByte);
  }

  /** For a value without whitespace at its ends, being accepted is being clean. */
  lemma AcceptedUnpadded(v: string)
    requires Unpadded(v)
    ensures Accepted(v) <==> Clean(v)
  {
    NormalizeUnpadded(v);
    var n := Normalize(v);
    assert n == v;
    if Clean(v) {
      assert forall i :: 0 <= i < |n| ==> !IsForbidden(n[i]);
    }
  }

  /** A value is clean exactly when both its parts are. */
  lemma CleanConcat(a: string, b: string)
    ensures Clean(a + b) <==> Clean(a) && Clean(b)
  {
    if Clean(a + b) {
      forall i | 0 <= i < |a| ensures IsByte(a[i]) && !IsForbidden(a[i]) {
        assert a[i] == (a + b)[i];
      }
      forall i | 0 <= i < |b| ensures IsByte(b[i]) && !IsForbidden(b[i]) {
        assert b[i] == (a + b)[|a| + i];
      }
    }
  }

  /** Printable ASCII other than space is clean and is not whitespace. */
  lemma VisibleClean(s: string)
    requires forall i :: 0 <= i < |s| ==> '!' <= s[i] <= '~'
    ensures Clean(s) && Unpadded(s)
  {
  }
}

=== FILE: response_headers.dfy ===
/** The headers of the synthesized download response (download-worker.js, lines 23-32):
    content type with its default, a `Content-Disposition` carrying both a quoted
    `filename` and an RFC 8187 `filename*`, no caching, no sniffing, and a
    `Content-Length` when the size is known. */
module ResponseHeaders {
  import opened Base
  import Decimal
  import UriComponent
  import Utf8
  import HeaderValues

  datatype Header = Header(name: string, value: string)

  const DefaultContentType := "application/octet-stream"
  const DispositionHead := "attachment; filename=\""
  /** What follows the quoted `filename`: the `filename*` parameter up to its value. */
  const DispositionParameter := "; filename*=UTF-8''"
  const DispositionJoint := "\"" + DispositionParameter

  /** Number of occurrences of `c` in `s`. */
  function Occurrences(s: string, c: char): nat {
    if |s| == 0 then 0 else (if s[0] == c then 1 else 0) + Occurrences(s[1..], c)
  }

  /** `a` can be obtained from `b` by deleting characters. */
  predicate IsSubsequence(a: string, b: string)
    decreases |b|
  {
    |a| == 0 || (|b| > 0 && ((a[0] == b[0] && IsSubsequence(a[1..], b[1..])) || IsSubsequence(a, b[1..])))
  }

  /** `filename.replace(/"/g, '')`. The result has no quote, keeps every other character in
      order, and is shorter exactly by the number of quotes removed; together these say it is
      the input with its quotes deleted and nothing else changed. */
  function StripQuotes(s: string): (r: string)
    ensures '"' !in r
    ensures IsSubsequence(r, s)
    ensures |r| + Occurrences(s, '"') == |s|
  {
    if |s| == 0 then []
    else
      var rest := StripQuotes(s[1..]);
      if s[0] == '"' then rest
      else
        var r := [s[0]] + rest;
        assert r[1..] == rest;
        r
  }

  /** A string without quotes is left alone. */
  lemma {:induction false} StripQuotesNoQuote(s: string)
    requires '"' !in s
    ensures StripQuotes(s) == s
  {
    if |s| > 0 {
      assert '"' !in s[1..] by {
        forall i | 0 <= i < |s[1..]| ensures s[1..][i] != '"' {
          assert s[1..][i] == s[i + 1];
        }
      }
      StripQuotesNoQuote(s[1..]);
    }
  }

  /** Stripping twice is stripping once. */
  lemma StripQuotesIdempotent(s: string)
    ensures StripQuotes(StripQuotes(s)) == StripQuotes(s)
  {
    StripQuotesNoQuote(StripQuotes(s));
  }

  /** The `Content-Disposition` value of line 25. A reader that takes the quoted part to end
      at its first quote finds in it the filename without its quotes, and after it the
      encoded filename. */
  function ContentDisposition(filename: string): (r: string)
    ensures ParseDisposition(r) == Some((StripQuotes(filename), UriComponent.Encode(filename)))
  {
    ParseDispositionShape(StripQuotes(filename), UriComponent.Encode(filename));
    DispositionHead + StripQuotes(filename) + DispositionJoint + UriComponent.Encode(filename)
  }

  /** Index of the first `c` in `s`, if any. */
  function FirstIndex(s: string, c: char): (r: Option<nat>)
    ensures r.Some? ==> r.value < |s| && s[r.value] == c && c !in s[..r.value]
    ensures r.None? ==> c !in s
  {
    if |s| == 0 then None
    else if s[0] == c then Some(0)
    else
      var r := FirstIndex(s[1..], c);
      if r.Some? then
        assert s[..r.value + 1] == [s[0]] + s[1..][..r.value];
        Some(r.value + 1)
      else None
  }

  /** Reads a disposition value of the shape line 25 produces back into its quoted
      `filename` and its `filename*` value; the quoted part ends at the first quote. */
  function ParseDisposition(v: string): Option<(string, string)> {
    if |v| >= |DispositionHead| && v[..|DispositionHead|] == DispositionHead then
      var rest := v[|DispositionHead|..];
      match FirstIndex(rest, '"')
      case None => None
      case Some(k) =>
        var after := rest[k..];
        if |after| >= |DispositionJoint| && after[..|DispositionJoint|] == DispositionJoint
        then Some((rest[..k], after[|DispositionJoint|..]))
        else None
    else None
  }

  /** Any quote-free `q` and any `e` are read back from the line-25 shape. */
  lemma ParseDispositionShape(q: string, e: string)
    requires '"' !in q
    ensures ParseDisposition(DispositionHead + q + DispositionJoint + e) == Some((q, e))
  {
    var v := DispositionHead + q + DispositionJoint + e;
    assert v[..|DispositionHead|] == DispositionHead;
    var rest := v[|DispositionHead|..];
    assert rest == q + (DispositionJoint + e);
    FirstIndexAfterQuoteFree(q, DispositionJoint + e);
    var after := rest[|q|..];
    assert after == DispositionJoint + e;
    assert after[..|DispositionJoint|] == DispositionJoint;
    assert after[|DispositionJoint|..] == e;
    assert rest[..|q|] == q;
  }

  /** The disposition value is unambiguous: a reader finds in it exactly the stripped
      filename and the encoded filename, and the encoded part gives back the full filename. */
  lemma DispositionRoundTrip(filename: string)
    ensures ParseDisposition(ContentDisposition(filename))
         == Some((StripQuotes(filename), UriComponent.Encode(filename)))
    ensures UriComponent.Unescape(UriComponent.Encode(filename)).Some?
    ensures Utf8.Decode(UriComponent.Unescape(UriComponent.Encode(filename)).value) == Some(filename)
  {
    UriComponent.RecoverString(filename);
  }

  lemma {:induction false} FirstIndexAfterQuoteFree(q: string, t: string)
    requires '"' !in q
    requires |t| > 0 && t[0] == '"'
    ensures FirstIndex(q + t, '"') == Some(|q|)
  {
    if |q| == 0 {
      assert q + t == t;
    } else {
      assert (q + t)[1..] == q[1..] + t;
      assert q[0] != '"' && '"' !in q[1..];
      FirstIndexAfterQuoteFree(q[1..], t);
    }
  }

  /** The value of the first header called `name`. */
  function Lookup(hs: seq<Header>, name: string): Option<string> {
    if |hs| == 0 then None
    else if hs[0].name == name then Some(hs[0].value)
    else Lookup(hs[1..], name)
  }

  /** Lookup finds the value of the first header with the name. */
  lemma {:induction false} LookupFirst(hs: seq<Header>, i: nat, name: string)
    requires i < |hs| && hs[i].name == name
    requires forall j :: 0 <= j < i ==> hs[j].name != name
    ensures Lookup(hs, name) == Some(hs[i].value)
  {
    if i > 0 {
      LookupFirst(hs[1..], i - 1, name);
    }
  }

  /** Lookup finds nothing when no header has the name. */
  lemma {:induction false} LookupMissing(hs: seq<Header>, name: string)
    requires forall j :: 0 <= j < |hs| ==> hs[j].name != name
    ensures Lookup(hs, name).None?
  {
    if |hs| > 0 {
      LookupMissing(hs[1..], name);
    }
  }

  /** The `Content-Type` value of line 24: the given type unless it is missing or empty
      (both falsy), in which case the octet-stream default; never empty. */
  function ContentTypeValue(contentType: Option<string>): (r: string)
    ensures r != ""
    ensures r == DefaultContentType <==> contentType.None? || contentType.value in {"", DefaultContentType}
    ensures r != DefaultContentType ==> contentType == Some(r)
  {
    if contentType.Some? && contentType.value != "" then contentType.value else DefaultContentType
  }

  /** The condition of line 30: the size is truthy, that is, present and not zero, so that
      a `Content-Length` of "0" is never sent. */
  predicate HasLength(size: Option<Size>): (b: bool)
    ensures b <==> size.Some? && Decimal.FromNat(size.value) != "0"
  {
    if size.Some? then
      Decimal.ParseFromNat(size.value);
      size.value != 0
    else false
  }

  /** The header list of lines 23-32 around a given disposition value, in insertion order:
      the four headers of the constructor, then `Content-Length` when the size is truthy. */
  function Assemble(disposition: string, contentType: Option<string>, size: Option<Size>): (hs: seq<Header>)
    ensures |hs| == if HasLength(size) then 5 else 4
  {
    [ Header("Content-Type", ContentTypeValue(contentType)),
      Header("Content-Disposition", disposition),
      Header("Cache-Control", "no-cache"),
      Header("X-Content-Type-Options", "nosniff")
    ] + if HasLength(size) then [Header("Content-Length", Decimal.FromNat(size.value))] else []
  }

  /** The header list of lines 23-32 as the handler passes it on. `contentType` and `size`
      are optional as in the registration payload; an empty type and a zero size count as
      absent, as JavaScript's truthiness makes them. */
  function Build(filename: string, contentType: Option<string>, size: Option<Size>): (hs: seq<Header>)
    ensures |hs| == if HasLength(size) then 5 else 4
  {
    Assemble(ContentDisposition(filename), contentType, size)
  }

  /** Where each header of the list sits, and what looking each name up finds. */
  lemma AssembleLookups(disposition: string, contentType: Option<string>, size: Option<Size>)
    ensures var hs := Assemble(disposition, contentType, size);
            && Lookup(hs, "Content-Type") == Some(ContentTypeValue(contentType))
            && Lookup(hs, "Content-Disposition") == Some(disposition)
            && Lookup(hs, "Cache-Control") == Some("no-cache")
            && Lookup(hs, "X-Content-Type-Options") == Some("nosniff")
            && Lookup(hs, "Content-Length") == if HasLength(size) then Some(Decimal.FromNat(size.value)) else None
  {
    var hs := Assemble(disposition, contentType, size);
    var names := ["Content-Type", "Content-Disposition", "Cache-Control", "X-Content-Type-Options", "Content-Length"];
    assert forall i :: 0 <= i < |hs| ==> hs[i].name == names[i];
    assert hs[0].value == ContentTypeValue(contentType) && hs[1].value == disposition;
    assert hs[2].value == "no-cache" && hs[3].value == "nosniff";
    LookupFirst(hs, 0, names[0]);
    LookupFirst(hs, 1, names[1]);
    LookupFirst(hs, 2, names[2]);
    LookupFirst(hs, 3, names[3]);
    if HasLength(size) {
      assert hs[4].value == Decimal.FromNat(size.value);
      LookupFirst(hs, 4, names[4]);
    } else {
      LookupMissing(hs, names[4]);
    }
  }

  /** The content type is the given one when present and non-empty, else the octet-stream default. */
  lemma BuildContentType(filename: string, contentType: Option<string>, size: Option<Size>)
    ensures Lookup(Build(filename, contentType, size), "Content-Type")
         == Some(if contentType.Some? && contentType.value != "" then contentType.value else DefaultContentType)
  {
    AssembleLookups(ContentDisposition(filename), contentType, size);
  }

  /** The disposition reads back as the quote-free filename and the encoded filename, and
      the encoded part decodes to the filename itself. */
  lemma BuildDisposition(filename: string, contentType: Option<string>, size: Option<Size>)
    ensures Lookup(Build(filename, contentType, size), "Content-Disposition").Some?
    ensures ParseDisposition(Lookup(Build(filename, contentType, size), "Content-Disposition").value)
         == Some((StripQuotes(filename), UriComponent.Encode(filename)))
    ensures UriComponent.Unescape(UriComponent.Encode(filename)).Some?
    ensures Utf8.Decode(UriComponent.Unescape(UriComponent.Encode(filename)).value) == Some(filename)
  {
    AssembleLookups(ContentDisposition(filename), contentType, size);
    UriComponent.RecoverString(filename);
  }

  /** The response is never cached and never content-sniffed. */
  lemma BuildFixedHeaders(filename: string, contentType: Option<string>, size: Option<Size>)
    ensures Lookup(Build(filename, contentType, size), "Cache-Control") == Some("no-cache")
    ensures Lookup(Build(filename, contentType, size), "X-Content-Type-Options") == Some("nosniff")
  {
    AssembleLookups(ContentDisposition(filename), contentType, size);
  }

  /** `Content-Length` is present exactly when the size is truthy, and then it reads back as the size. */
  lemma BuildContentLength(filename: string, contentType: Option<string>, size: Option<Size>)
    ensures Lookup(Build(filename, contentType, size), "Content-Length").Some? <==> size.Some? && size.value != 0
    ensures Lookup(Build(filename, contentType, size), "Content-Length").Some? ==>
              Decimal.Parse(Lookup(Build(filename, contentType, size), "Content-Length").value) == Some(size.value as nat)
    ensures HasLength(size) ==> Lookup(Build(filename, contentType, size), "Content-Length") == Some(Decimal.FromNat(size.value))
  {
    AssembleLookups(ContentDisposition(filename), contentType, size);
    if HasLength(size) {
      Decimal.ParseFromNat(size.value);
    }
  }

  /** Every header is set once. */
  lemma BuildNamesDistinct(filename: string, contentType: Option<string>, size: Option<Size>)
    ensures var hs := Build(filename, contentType, size);
            forall i, j :: 0 <= i < j < |hs| ==> hs[i].name != hs[j].name
  {
  }

  /** `new Headers(init)` for a list of distinct names, followed by its `append`s: the list
      the object holds, every value normalized, or `None` when some value makes it throw. */
  function Construct(hs: seq<Header>): (r: Option<seq<Header>>)
    ensures r.Some? <==> forall i :: 0 <= i < |hs| ==> HeaderValues.Accepted(hs[i].value)
    ensures r.Some? ==> |r.value| == |hs|
    ensures r.Some? ==> forall i :: 0 <= i < |hs| ==>
              r.value[i] == Header(hs[i].name, HeaderValues.Normalize(hs[i].value))
  {
    ConstructRefuses(hs);
    ConstructNormalizes(hs);
    Normalized(hs)
  }

  /** The header list with every value normalized, stopping at the first refused value. */
  function Normalized(hs: seq<Header>): Option<seq<Header>> {
    if |hs| == 0 then Some([])
    else if !HeaderValues.Accepted(hs[0].value) then None
    else
      match Normalized(hs[1..])
      case None => None
      case Some(rest) => Some([Stored(hs[0])] + rest)
  }

  /** The walk gets to the end exactly when every value is accepted. */
  lemma {:induction false} ConstructRefuses(hs: seq<Header>)
    ensures Normalized(hs).Some? <==> forall i :: 0 <= i < |hs| ==> HeaderValues.Accepted(hs[i].value)
  {
    if |hs| > 0 {
      ConstructRefuses(hs[1..]);
      AllCons(Takes, hs);
    }
  }

  /** A header whose value a `Headers` object takes. */
  predicate Takes(h: Header) {
    HeaderValues.Accepted(h.value)
  }

  /** Every element satisfies `p` exactly when the first one and every later one do. */
  lemma AllCons<A>(p: A -> bool, xs: seq<A>)
    requires |xs| > 0
    ensures (forall i :: 0 <= i < |xs| ==> p(xs[i]))
        <==> p(xs[0]) && forall i :: 0 <= i < |xs| - 1 ==> p(xs[1..][i])
  {
    if forall i :: 0 <= i < |xs| - 1 ==> p(xs[1..][i]) {
      forall i | 1 <= i < |xs| ensures p(xs[i]) {
        assert xs[i] == xs[1..][i - 1];
      }
    }
  }

  /** A walk that gets to the end keeps every name and normalizes every value, in place. */
  lemma {:induction false} ConstructNormalizes(hs: seq<Header>)
    ensures Normalized(hs).Some? ==> |Normalized(hs).value| == |hs|
    ensures Normalized(hs).Some? ==> forall i :: 0 <= i < |hs| ==> Normalized(hs).value[i] == Stored(hs[i])
  {
    if |hs| > 0 && Normalized(hs).Some? {
      var rest := Normalized(hs[1..]).value;
      ConstructNormalizes(hs[1..]);
      assert Normalized(hs).value == [Stored(hs[0])] + rest;
      MapCons(Stored, rest, hs);
    }
  }

  /** A header as a `Headers` object keeps it: same name, value stripped of surrounding
      whitespace. */
  function Stored(h: Header): Header {
    Header(h.name, HeaderValues.Normalize(h.value))
  }

  /** Mapping the first element in front of the mapped rest maps the whole sequence. */
  lemma MapCons<A, B>(f: A -> B, rest: seq<B>, xs: seq<A>)
    requires |xs| > 0 && |rest| == |xs| - 1
    requires forall i :: 0 <= i < |rest| ==> rest[i] == f(xs[1..][i])
    ensures forall i :: 0 <= i < |xs| ==> ([f(xs[0])] + rest)[i] == f(xs[i])
  {
    forall i | 1 <= i < |xs|
      ensures ([f(xs[0])] + rest)[i] == f(xs[i])
    {
      assert ([f(xs[0])] + rest)[i] == rest[i - 1];
      assert xs[1..][i - 1] == xs[i];
    }
  }

  /** Looking a name up in the constructed object gives the normalized value of the first
      header with that name. */
  lemma {:induction false} LookupConstruct(hs: seq<Header>, name: string)
    requires Construct(hs).Some?
    ensures Lookup(Construct(hs).value, name)
         == if Lookup(hs, name).Some? then Some(HeaderValues.Normalize(Lookup(hs, name).value)) else None
  {
    if |hs| > 0 {
      var r := Construct(hs).value;
      assert r[1..] == Construct(hs[1..]).value;
      LookupConstruct(hs[1..], name);
    }
  }

  /** The characters between a space and a tilde. */
  predicate Printable(s: string) {
    forall i :: 0 <= i < |s| ==> ' ' <= s[i] <= '~'
  }

  lemma PrintableClean(s: string)
    requires Printable(s)
    ensures HeaderValues.Clean(s)
  {
  }

  /** The fixed values of lines 26-27 and the size's digits are taken as they are. */
  lemma FixedValuesAccepted(size: Option<Size>)
    requires HasLength(size)
    ensures HeaderValues.Accepted("no-cache") && HeaderValues.Normalize("no-cache") == "no-cache"
    ensures HeaderValues.Accepted("nosniff") && HeaderValues.Normalize("nosniff") == "nosniff"
    ensures HeaderValues.Accepted(Decimal.FromNat(size.value))
         && HeaderValues.Normalize(Decimal.FromNat(size.value)) == Decimal.FromNat(size.value)
  {
    HeaderValues.VisibleClean("no-cache");
    HeaderValues.VisibleClean("nosniff");
    HeaderValues.VisibleClean(Decimal.FromNat(size.value));
    HeaderValues.AcceptedUnpadded("no-cache");
    HeaderValues.AcceptedUnpadded("nosniff");
    HeaderValues.AcceptedUnpadded(Decimal.FromNat(size.value));
    HeaderValues.NormalizeUnpadded("no-cache");
    HeaderValues.NormalizeUnpadded("nosniff");
    HeaderValues.NormalizeUnpadded(Decimal.FromNat(size.value));
  }

  /** The constructor and the `append` go through exactly when the disposition and the
      content type are both acceptable header values. */
  lemma ConstructAssemble(disposition: string, contentType: Option<string>, size: Option<Size>)
    ensures Construct(Assemble(disposition, contentType, size)).Some?
        <==> HeaderValues.Accepted(disposition) && HeaderValues.Accepted(ContentTypeValue(contentType))
  {
    var hs := Assemble(disposition, contentType, size);
    assert hs[0].value == ContentTypeValue(contentType) && hs[1].value == disposition;
    if HeaderValues.Accepted(disposition) && HeaderValues.Accepted(ContentTypeValue(contentType)) {
      if HasLength(size) {
        FixedValuesAccepted(size);
      } else {
        FixedValuesAccepted(Some(1));
      }
      AssembleValues(HeaderValues.Accepted, disposition, contentType, size);
    }
  }

  /** A property of the disposition, the content type, the two fixed values and the size's
      numeral holds of every value in the list. */
  lemma AssembleValues(p: string -> bool, disposition: string, contentType: Option<string>, size: Option<Size>)
    requires p(disposition) && p(ContentTypeValue(contentType)) && p("no-cache") && p("nosniff")
    requires HasLength(size) ==> p(Decimal.FromNat(size.value))
    ensures var hs := Assemble(disposition, contentType, size);
            forall i :: 0 <= i < |hs| ==> p(hs[i].value)
  {
  }

  /** Removing quotes neither adds nor removes a character a header value cannot hold. */
  lemma {:induction false} StripQuotesClean(s: string)
    ensures HeaderValues.Clean(StripQuotes(s)) <==> HeaderValues.Clean(s)
  {
    if |s| > 0 {
      assert s == [s[0]] + s[1..];
      HeaderValues.CleanConcat([s[0]], s[1..]);
      StripQuotesClean(s[1..]);
      if s[0] != '"' {
        HeaderValues.CleanConcat([s[0]], StripQuotes(s[1..]));
      }
    }
  }

  /** The escaped filename holds only unreserved characters and percent signs. */
  lemma EncodePrintable(s: string)
    ensures Printable(UriComponent.Encode(s))
    ensures '"' !in UriComponent.Encode(s)
  {
    var e := UriComponent.Encode(s);
    forall i | 0 <= i < |e| ensures ' ' <= e[i] <= '~' && e[i] != '"' {
      UnreservedPrintable(e[i]);
    }
  }

  lemma UnreservedPrintable(c: char)
    requires UriComponent.Unreserved(c) || c == '%'
    ensures ' ' <= c <= '~' && c != '"'
  {
    if !UriComponent.IsAlphaNum(c) && c != '%' {
      assert c in "-_.!~*'()";
    }
  }

  /** A value `DispositionHead + q + DispositionJoint + e` has no whitespace at its ends. */
  lemma DispositionUnpadded(q: string, e: string)
    requires forall i :: 0 <= i < |e| ==> UriComponent.Unreserved(e[i]) || e[i] == '%'
    ensures HeaderValues.Unpadded(DispositionHead + q + DispositionJoint + e)
  {
    var v := DispositionHead + q + DispositionJoint + e;
    assert v[0] == 'a';
    if |e| > 0 {
      assert v[|v| - 1] == e[|e| - 1];
    } else {
      assert v[|v| - 1] == '\'';
    }
  }

  /** The fixed parts of the disposition are printable ASCII. */
  lemma DispositionPartsPrintable()
    ensures Printable(DispositionHead) && Printable(DispositionJoint)
    ensures DispositionJoint == "\"" + DispositionParameter && '"' !in DispositionParameter
  {
    HeadPrintable();
    JointPrintable();
    JointQuote();
  }

  lemma HeadPrintable()
    ensures Printable(DispositionHead)
  {
  }

  lemma JointPrintable()
    ensures Printable(DispositionJoint)
  {
  }

  lemma JointQuote()
    ensures DispositionJoint == "\"" + DispositionParameter && '"' !in DispositionParameter
  {
  }


  /** A value of the line-25 shape whose encoded part comes from `encodeURIComponent` is an
      acceptable header value exactly when its quoted part is clean. */
  lemma ShapeAccepted(q: string, e: string)
    requires Printable(e)
    requires forall i :: 0 <= i < |e| ==> UriComponent.Unreserved(e[i]) || e[i] == '%'
    ensures HeaderValues.Accepted(DispositionHead + q + DispositionJoint + e) <==> HeaderValues.Clean(q)
  {
    var v := DispositionHead + q + DispositionJoint + e;
    DispositionUnpadded(q, e);
    HeaderValues.AcceptedUnpadded(v);
    DispositionPartsPrintable();
    PrintableClean(DispositionHead);
    PrintableClean(DispositionJoint);
    PrintableClean(e);
    HeaderValues.CleanConcat(DispositionHead, q);
    HeaderValues.CleanConcat(DispositionHead + q, DispositionJoint);
    HeaderValues.CleanConcat(DispositionHead + q + DispositionJoint, e);
  }

  /** Line 25's disposition is an acceptable header value exactly when the filename is:
      every character fits in a byte and none is NUL, CR or LF. */
  lemma DispositionAccepted(filename: string)
    ensures HeaderValues.Accepted(ContentDisposition(filename)) <==> HeaderValues.Clean(filename)
  {
    EncodePrintable(filename);
    ShapeAccepted(StripQuotes(filename), UriComponent.Encode(filename));
    StripQuotesClean(filename);
  }

  /** Line 25's disposition has no whitespace at its ends, so the `Headers` object keeps it
      as it is. */
  lemma DispositionNormal(filename: string)
    ensures HeaderValues.Normalize(ContentDisposition(filename)) == ContentDisposition(filename)
  {
    DispositionUnpadded(StripQuotes(filename), UriComponent.Encode(filename));
    HeaderValues.NormalizeUnpadded(ContentDisposition(filename));
  }

  /** Dropping the head of a four-part concatenation. */
  lemma DropHead(a: string, b: string, c: string, d: string)
    ensures (a + b + c + d)[|a|..] == b + (c + d)
  {
  }

  /** The headers of lines 23-32 are built without an exception exactly when the filename is
      clean and the content type is an acceptable header value. A filename with a character
      beyond U+00FF, such as any Chinese or Cyrillic name, makes the constructor throw. */
  lemma BuildAccepted(filename: string, contentType: Option<string>, size: Option<Size>)
    ensures Construct(Build(filename, contentType, size)).Some?
        <==> HeaderValues.Clean(filename) && HeaderValues.Accepted(ContentTypeValue(contentType))
  {
    ConstructAssemble(ContentDisposition(filename), contentType, size);
    DispositionAccepted(filename);
  }

  /** Prefixes every character of `cs` onto the content of a read, keeping a failed read failed. */
  function PrependAll(cs: string, r: Option<(string, string)>): Option<(string, string)> {
    match r
    case None => None
    case Some((content, after)) => Some((cs + content, after))
  }

  /** Reads the body of an HTTP quoted-string whose opening quote is already consumed
      (section 5.6.4 of RFC 9110): a backslash makes the next character literal, and an
      unescaped quote ends it. Gives the content and what follows the closing quote, or
      `None` when no closing quote is found. */
  function ReadQuoted(s: string): Option<(string, string)>
    decreases |s|
  {
    if |s| == 0 then None
    else if s[0] == '"' then Some(([], s[1..]))
    else if s[0] == '\\' then
      if |s| < 2 then None else PrependAll([s[1]], ReadQuoted(s[2..]))
    else PrependAll([s[0]], ReadQuoted(s[1..]))
  }

  /** Without a quote there is no end to the quoted-string. */
  lemma {:induction false} ReadQuotedNoQuote(s: string)
    requires '"' !in s
    ensures ReadQuoted(s).None?
    decreases |s|
  {
    if |s| >= 2 && s[0] == '\\' {
      assert '"' !in s[2..] by {
        forall i | 0 <= i < |s| - 2 ensures s[2..][i] != '"' {
          assert s[2..][i] == s[i + 2];
        }
      }
      ReadQuotedNoQuote(s[2..]);
    } else if |s| >= 1 && s[0] != '\\' {
      assert '"' !in s[1..] by {
        forall i | 0 <= i < |s| - 1 ensures s[1..][i] != '"' {
          assert s[1..][i] == s[i + 1];
        }
      }
      ReadQuotedNoQuote(s[1..]);
    }
  }

  /** Characters that are neither quote nor backslash are read as themselves. */
  lemma {:induction false} ReadQuotedPlain(p: string, t: string)
    requires '"' !in p && '\\' !in p
    ensures ReadQuoted(p + t) == PrependAll(p, ReadQuoted(t))
    decreases |p|
  {
    if |p| > 0 {
      assert (p + t)[1..] == p[1..] + t;
      assert '"' !in p[1..] && '\\' !in p[1..] by {
        forall i | 0 <= i < |p| - 1 ensures p[1..][i] != '"' && p[1..][i] != '\\' {
          assert p[1..][i] == p[i + 1];
        }
      }
      ReadQuotedPlain(p[1..], t);
      assert ReadQuoted(p + t) == PrependAll([p[0]], ReadQuoted(p[1..] + t));
      if ReadQuoted(t).Some? {
        var c := ReadQuoted(t).value.0;
        assert [p[0]] + (p[1..] + c) == p + c;
      }
    } else {
      assert p + t == t;
      if ReadQuoted(t).Some? {
        assert p + ReadQuoted(t).value.0 == ReadQuoted(t).value.0;
      }
    }
  }

  /** The quoted part of line 25 as a quoted-string reader sees it: when the filename has no
      backslash, it reads back as the filename without its quotes, followed by the
      `filename*` parameter. */
  lemma DispositionReadsBack(filename: string)
    requires '\\' !in filename
    ensures ReadQuoted(ContentDisposition(filename)[|DispositionHead|..])
         == Some((StripQuotes(filename), DispositionParameter + UriComponent.Encode(filename)))
  {
    StripQuotesKeepsOut(filename, '\\');
    EncodePrintable(filename);
    ShapeReadsBack(StripQuotes(filename), UriComponent.Encode(filename));
  }

  /** The line-25 shape around a quoted part with no quote or backslash reads back as that
      part, followed by the `filename*` parameter. */
  lemma ShapeReadsBack(q: string, e: string)
    requires '"' !in q && '\\' !in q && '"' !in e
    ensures ReadQuoted((DispositionHead + q + DispositionJoint + e)[|DispositionHead|..])
         == Some((q, DispositionParameter + e))
  {
    DropHead(DispositionHead, q, DispositionJoint, e);
    JointSplit(e);
    ReadClosing(q, DispositionParameter + e);
  }


  /** Removing quotes adds no character. */
  lemma {:induction false} StripQuotesKeepsOut(s: string, c: char)
    requires c !in s
    ensures c !in StripQuotes(s)
  {
    if |s| > 0 {
      assert c !in s[1..] by {
        forall i | 0 <= i < |s| - 1 ensures s[1..][i] != c {
          assert s[1..][i] == s[i + 1];
        }
      }
      StripQuotesKeepsOut(s[1..], c);
    }
  }

  /** As written, a filename that ends in a backslash (and has no other backslash or quote)
      leaves the quoted `filename` unterminated: its backslash escapes the closing quote. */
  lemma TrailingBackslashUnterminated(p: string)
    requires '"' !in p && '\\' !in p
    ensures ReadQuoted(ContentDisposition(p + "\\")[|DispositionHead|..]).None?
  {
    var f := p + "\\";
    var e := UriComponent.Encode(f);
    assert '"' !in f;
    StripQuotesNoQuote(f);
    DropHead(DispositionHead, f, DispositionJoint, e);
    JointSplit(e);
    var tail := DispositionParameter + e;
    Regroup(p, '\\', '"', tail);
    EncodePrintable(f);
    ReadEscapedQuote(p, tail);
  }

  /** The joint begins with the closing quote, and no other quote follows it. */
  lemma JointSplit(e: string)
    requires '"' !in e
    ensures DispositionJoint + e == "\"" + (DispositionParameter + e)
    ensures '"' !in DispositionParameter + e
  {
    JointQuote();
  }

  lemma Regroup<T>(p: seq<T>, c: T, d: T, t: seq<T>)
    ensures (p + [c]) + ([d] + t) == p + ([c, d] + t)
  {
  }

  /** A quote after plain characters closes the quoted-string. */
  lemma ReadClosing(q: string, x: string)
    requires '"' !in q && '\\' !in q
    ensures ReadQuoted(q + ("\"" + x)) == Some((q, x))
  {
    ReadQuotedPlain(q, "\"" + x);
    assert ("\"" + x)[1..] == x;
    assert ReadQuoted("\"" + x) == Some(([], x));
    assert q + [] == q;
  }

  /** A backslash before the only quote leaves the quoted-string open. */
  lemma ReadEscapedQuote(p: string, tail: string)
    requires '"' !in p && '\\' !in p && '"' !in tail
    ensures ReadQuoted(p + ("\\\"" + tail)).None?
  {
    ReadQuotedPlain(p, "\\\"" + tail);
    ReadQuotedNoQuote(tail);
    assert ("\\\"" + tail)[2..] == tail;
  }


  /** Drops every character a plain quoted `filename` should not carry: what is kept is
      printable ASCII other than the quote. */
  function AsciiFallback(s: string): (r: string)
    ensures Printable(r) && '"' !in r
    ensures Printable(s) && '"' !in s ==> r == s
  {
    if |s| == 0 then []
    else
      var rest := AsciiFallback(s[1..]);
      if ' ' <= s[0] <= '~' && s[0] != '"' then
        assert Printable(s) ==> Printable(s[1..]);
        [s[0]] + rest
      else rest
  }

  /** The quoted-string body for `s`: backslashes and quotes are escaped by a backslash. */
  function QuoteEscape(s: string): (r: string)
    ensures Printable(s) ==> Printable(r)
    ensures |r| >= |s|
  {
    if |s| == 0 then []
    else
      var rest := QuoteEscape(s[1..]);
      assert Printable(s) ==> Printable(s[1..]);
      (if s[0] == '"' || s[0] == '\\' then ['\\', s[0]] else [s[0]]) + rest
  }

  /** Reading an escaped body back gives the original text, and stops at the quote after it. */
  lemma {:induction false} ReadQuotedEscape(q: string, t: string)
    ensures ReadQuoted(QuoteEscape(q) + ("\"" + t)) == Some((q, t))
    decreases |q|
  {
    if |q| == 0 {
      assert QuoteEscape(q) + ("\"" + t) == "\"" + t;
    } else {
      ReadQuotedEscape(q[1..], t);
      var rest := QuoteEscape(q[1..]) + ("\"" + t);
      var head := if q[0] == '"' || q[0] == '\\' then ['\\', q[0]] else [q[0]];
      assert QuoteEscape(q) == head + QuoteEscape(q[1..]);
      ConcatAssoc(head, QuoteEscape(q[1..]), "\"" + t);
      ReadHead(q[0], rest);
      assert [q[0]] + q[1..] == q;
    }
  }

  /** One character of an escaped body is read back as itself. */
  lemma ReadHead(c: char, rest: string)
    ensures var head := if c == '"' || c == '\\' then ['\\', c] else [c];
            ReadQuoted(head + rest) == PrependAll([c], ReadQuoted(rest))
  {
    if c == '"' || c == '\\' {
      assert (['\\', c] + rest)[2..] == rest;
    } else {
      assert ([c] + rest)[1..] == rest;
    }
  }


  /** A `Content-Disposition` value that every filename can take: the quoted `filename`
      holds the ASCII fallback, escaped as a quoted-string, while `filename*` carries the
      full name as before. */
  function SafeDisposition(filename: string): (r: string)
    ensures HeaderValues.Accepted(r)
  {
    var q := QuoteEscape(AsciiFallback(filename));
    var e := UriComponent.Encode(filename);
    EncodePrintable(filename);
    PrintableClean(q);
    ShapeAccepted(q, e);
    DispositionHead + q + DispositionJoint + e
  }

  /** The safe disposition reads back as the fallback name followed by the `filename*`
      parameter, whatever the filename holds, and the `filename*` part still decodes to the
      full filename. */
  lemma SafeDispositionReadsBack(filename: string)
    ensures ReadQuoted(SafeDisposition(filename)[|DispositionHead|..])
         == Some((AsciiFallback(filename), DispositionParameter + UriComponent.Encode(filename)))
    ensures UriComponent.Unescape(UriComponent.Encode(filename)).Some?
    ensures Utf8.Decode(UriComponent.Unescape(UriComponent.Encode(filename)).value) == Some(filename)
  {
    var q := QuoteEscape(AsciiFallback(filename));
    var e := UriComponent.Encode(filename);
    DropHead(DispositionHead, q, DispositionJoint, e);
    EncodePrintable(filename);
    JointSplit(e);
    ReadQuotedEscape(AsciiFallback(filename), DispositionParameter + e);
    UriComponent.RecoverString(filename);
  }

  /** The headers of lines 23-32 with the safe disposition. */
  function BuildSafe(filename: string, contentType: Option<string>, size: Option<Size>): (hs: seq<Header>)
    ensures |hs| == if HasLength(size) then 5 else 4
  {
    Assemble(SafeDisposition(filename), contentType, size)
  }

  /** With the safe disposition, only the content type can make the constructor throw. */
  lemma BuildSafeAccepted(filename: string, contentType: Option<string>, size: Option<Size>)
    ensures Construct(BuildSafe(filename, contentType, size)).Some?
        <==> HeaderValues.Accepted(ContentTypeValue(contentType))
  {
    ConstructAssemble(SafeDisposition(filename), contentType, size);
  }
}

=== FILE: run_properties.dfy ===
/** Properties of whole runs of the worker: in-order delivery, start announcements,
    pull requests, re-registration and the stale-callback behaviour, and two end-to-end
    scenarios: a complete transfer and an abort. */
module RunProperties {
  import opened Base
  import opened Transfers
  import TransferProperties

  /** The `PUSH_DATA` messages for `cs`, in order. */
  function Pushes(u: Uuid, cs: seq<Chunk>): (evs: seq<Event>)
    ensures |evs| == |cs|
  {
    if |cs| == 0 then [] else [PushData(u, cs[0])] + Pushes(u, cs[1..])
  }

  /** `n` consecutive pulls of stream `h`. */
  function Pulls(h: nat, n: nat): (evs: seq<Event>)
    ensures |evs| == n
  {
    if n == 0 then [] else [Pull(h)] + Pulls(h, n - 1)
  }

  /** Running two event sequences one after the other. */
  lemma {:induction false} RunAppend(w: World, a: seq<Event>, b: seq<Event>)
    ensures Run(w, a + b) == Transition(Run(Run(w, a).next, b).next, Run(w, a).sent + Run(Run(w, a).next, b).sent)
    decreases |a|
  {
    if |a| == 0 {
      assert a + b == b;
    } else {
      var first := Step(w, a[0]);
      HeadTail(a, b);
      RunCons(w, a[0], a[1..] + b);
      RunCons(w, a[0], a[1..]);
      RunAppend(first.next, a[1..], b);
      var mid := Run(first.next, a[1..]);
      ConcatAssoc(first.sent, mid.sent, Run(mid.next, b).sent);
    }
  }

  lemma HeadTail<T>(a: seq<T>, b: seq<T>)
    requires |a| > 0
    ensures a == [a[0]] + a[1..]
    ensures a + b == [a[0]] + (a[1..] + b)
  {
  }

  /** Running a non-empty sequence is running its first event, then the rest. */
  lemma RunCons(w: World, e: Event, rest: seq<Event>)
    ensures Run(w, [e] + rest)
         == Transition(Run(Step(w, e).next, rest).next, Step(w, e).sent + Run(Step(w, e).next, rest).sent)
  {
    assert ([e] + rest)[0] == e;
    assert ([e] + rest)[1..] == rest;
  }

  /** Running a sequence whose first step and remaining run are known. */
  lemma RunThrough(w: World, e: Event, rest: seq<Event>, first: Transition, after: Transition)
    requires Step(w, e) == first && Run(first.next, rest) == after
    ensures Run(w, [e] + rest) == Transition(after.next, first.sent + after.sent)
  {
    RunCons(w, e, rest);
  }

  /** Literal sequences taken apart at the head. */
  lemma Display2<T>(a: T, b: T)
    ensures [a] + [b] == [a, b]
  {
  }

  lemma Display3<T>(a: T, b: T, c: T)
    ensures [a] + [b, c] == [a, b, c]
  {
  }

  lemma Display4<T>(a: T, b: T, c: T, d: T)
    ensures [a] + [b, c, d] == [a, b, c, d]
  {
  }

  lemma Display5<T>(a: T, b: T, c: T, d: T, e: T)
    ensures [a] + [b, c, d, e] == [a, b, c, d, e]
  {
  }

  lemma RunSingle(w: World, e: Event)
    ensures Run(w, [e]) == Step(w, e)
  {
    RunCons(w, e, []);
    assert [e] + [] == [e];
    assert Step(w, e).sent + [] == Step(w, e).sent;
  }

  // ---------------------------------------------------------------------------------
  // In-order delivery
  // ---------------------------------------------------------------------------------

  /** Pushes for a registered id append their chunks, in order, to that one stream, and leave
      everything else as it was. */
  lemma {:induction false} PushesAppend(w: World, u: Uuid, cs: seq<Chunk>)
    requires Consistent(w)
    requires u in w.registry
    ensures var t := Run(w, Pushes(u, cs));
            var h := w.registry[u].stream;
            && t.sent == []
            && u in t.next.registry
            && t.next.registry == w.registry[u := w.registry[u].(pendingPull := w.registry[u].pendingPull && |cs| == 0)]
            && t.next.streams == w.streams[h := w.streams[h].(sink := Sink(w.streams[h].sink.queue + cs, Open))]
    decreases |cs|
  {
    var h := w.registry[u].stream;
    if |cs| == 0 {
      assert w.streams[h].sink == Sink(w.streams[h].sink.queue + cs, Open);
      assert w.registry[u := w.registry[u]] == w.registry;
    } else {
      var e := w.registry[u];
      var q := w.streams[h].sink.queue;
      var w1 := Step(w, PushData(u, cs[0])).next;
      TransferProperties.PushAppends(w, u, cs[0]);
      TransferProperties.StepConsistent(w, PushData(u, cs[0]));
      assert w1.registry[u] == e.(pendingPull := false);
      assert w1.streams == w.streams[h := w.streams[h].(sink := Sink(q + [cs[0]], Open))];
      PushesAppend(w1, u, cs[1..]);
      RunCons(w, PushData(u, cs[0]), Pushes(u, cs[1..]));
      UpdateTwice(w.registry, u, e.(pendingPull := false), e.(pendingPull := false));
      HeadTail(cs, []);
      ConcatAssoc(q, [cs[0]], cs[1..]);
      SeqUpdateTwice(w.streams, h, w.streams[h].(sink := Sink(q + [cs[0]], Open)),
                     w.streams[h].(sink := Sink(q + cs, Open)));
    }
  }

  lemma UpdateTwice<K, V>(m: map<K, V>, k: K, v1: V, v2: V)
    ensures m[k := v1][k := v2] == m[k := v2]
  {
  }

  lemma SeqUpdateTwice<T>(s: seq<T>, i: nat, x: T, y: T)
    requires i < |s|
    ensures s[i := x][i := y] == s[i := y]
  {
  }

  /** Register then push c1..cn: the fresh stream holds exactly c1..cn and stays open, the
      id names it, and every earlier stream is as it was. */
  lemma RegisterThenPushes(w: World, u: Uuid, meta: Metadata, cs: seq<Chunk>)
    requires Consistent(w)
    ensures var r := Run(w, [RegisterStream(u, meta)] + Pushes(u, cs));
            && r.sent == []
            && Consistent(r.next)
            && u in r.next.registry && r.next.registry[u].stream == |w.streams|
            && SameExcept(w.registry, r.next.registry, u)
            && r.next.streams == w.streams + [Stream(u, Sink(cs, Open), false, false)]
  {
    var h := |w.streams|;
    var created := Stream(u, Sink([], Open), false, false);
    var t1 := Step(w, RegisterStream(u, meta));
    TransferProperties.RegisterReplaces(w, u, meta);
    TransferProperties.StepConsistent(w, RegisterStream(u, meta));
    assert t1.next.streams == w.streams + [created];
    RunCons(w, RegisterStream(u, meta), Pushes(u, cs));
    PushesOnFresh(t1.next, u, cs);
    var t := Run(t1.next, Pushes(u, cs));
    assert t1.sent + t.sent == [];
    SnocUpdate(w.streams, created, Stream(u, Sink(cs, Open), false, false));
  }

  lemma SnocUpdate<T>(s: seq<T>, x: T, y: T)
    ensures (s + [x])[|s| := y] == s + [y]
  {
  }

  /** Pushes onto a freshly registered stream leave exactly those chunks on it. */
  lemma PushesOnFresh(w: World, u: Uuid, cs: seq<Chunk>)
    requires Consistent(w)
    requires u in w.registry && !w.registry[u].pendingPull
    requires w.streams[w.registry[u].stream] == Stream(u, Sink([], Open), false, false)
    ensures var t := Run(w, Pushes(u, cs));
            && t.sent == []
            && Consistent(t.next)
            && t.next.registry == w.registry
            && t.next.streams == w.streams[w.registry[u].stream := Stream(u, Sink(cs, Open), false, false)]
  {
    var h := w.registry[u].stream;
    PushesAppend(w, u, cs);
    TransferProperties.RunConsistent(w, Pushes(u, cs));
    TakeDrop(cs, 0);
    MapSelfUpdate(w.registry, u, w.registry[u].(pendingPull := false));
  }

  /** Register, push c1..cn, close: the stream the consumer holds ends up holding exactly
      c1..cn in push order followed by end-of-data; the id is gone, no other id is touched,
      every earlier stream is as it was, and nobody was notified. */
  lemma DeliveryInOrder(w: World, u: Uuid, meta: Metadata, cs: seq<Chunk>)
    requires Consistent(w)
    ensures var r := Run(w, [RegisterStream(u, meta)] + Pushes(u, cs) + [CloseStream(u)]);
            && r.sent == []
            && r.next.streams == w.streams + [Stream(u, Sink(cs, Closed), false, false)]
            && u !in r.next.registry
            && SameExcept(w.registry, r.next.registry, u)
  {
    var prefix := [RegisterStream(u, meta)] + Pushes(u, cs);
    RegisterThenPushes(w, u, meta, cs);
    var w2 := Run(w, prefix).next;
    RunAppend(w, prefix, [CloseStream(u)]);
    RunSingle(w2, CloseStream(u));
    TransferProperties.CloseRemoves(w2, u);
    var closed := Stream(u, Sink(cs, Closed), false, false);
    assert w2.streams[|w.streams|].(sink := Sink(cs, Closed)) == closed;
    SnocUpdate(w.streams, Stream(u, Sink(cs, Open), false, false), closed);
  }

  /** Once an id is registered again, chunks pushed for it reach only the new stream: the
      stream of the earlier registration keeps exactly what it had. */
  lemma ReRegistrationIsolates(w: World, u: Uuid, meta: Metadata, cs: seq<Chunk>)
    requires Consistent(w)
    requires u in w.registry
    ensures var r := Run(w, [RegisterStream(u, meta)] + Pushes(u, cs));
            var previous := w.registry[u].stream;
            && |r.next.streams| == |w.streams| + 1
            && r.next.streams[previous] == w.streams[previous]
            && r.next.streams[|w.streams|].sink == Sink(cs, Open)
  {
    RegisterThenPushes(w, u, meta, cs);
  }

  // ---------------------------------------------------------------------------------
  // In-order delivery among other traffic
  // ---------------------------------------------------------------------------------

  /** Whether `ev` leaves alone the transfer `u`, whose streams are those of `ss` that carry
      `u`: anything but a registration, close or abort of `u`, or a cancel of one of `u`'s
      streams. Pushes for `u`, pulls of any stream, and traffic for other ids all qualify. */
  predicate Quiet(ss: seq<Stream>, u: Uuid, ev: Event) {
    match ev
    case RegisterStream(v, _) => v != u
    case CloseStream(v) => v != u
    case AbortStream(v) => v != u
    case Cancel(h, _) => h >= |ss| || ss[h].uuid != u
    case _ => true
  }

  /** The chunks of the pushes for `u` among `evs`, in order. */
  function Chunks(evs: seq<Event>, u: Uuid): seq<Chunk> {
    if |evs| == 0 then []
    else (if evs[0].PushData? && evs[0].uuid == u then [evs[0].chunk] else []) + Chunks(evs[1..], u)
  }

  /** The bytes the producer sent for `u` among `evs`, in order. */
  function Payload(evs: seq<Event>, u: Uuid): seq<Byte> {
    if |evs| == 0 then []
    else (if evs[0].PushData? && evs[0].uuid == u then evs[0].chunk else []) + Payload(evs[1..], u)
  }

  /** The bytes of the pushed chunks are the bytes sent. */
  lemma {:induction false} FlattenChunks(evs: seq<Event>, u: Uuid)
    ensures Flatten(Chunks(evs, u)) == Payload(evs, u)
    decreases |evs|
  {
    if |evs| > 0 {
      FlattenChunks(evs[1..], u);
      var head := if evs[0].PushData? && evs[0].uuid == u then [evs[0].chunk] else [];
      FlattenAppend(head, Chunks(evs[1..], u));
      if head != [] {
        FlattenSnoc([], evs[0].chunk);
        assert [] + [evs[0].chunk] == head;
        assert [] + evs[0].chunk == evs[0].chunk;
      }
    }
  }

  /** `u` is registered to the stream at handle `|ss| - 1`, the streams up to it carry the ids
      of `ss`, and every later stream belongs to another id. */
  predicate Follows(x: World, u: Uuid, ss: seq<Stream>) {
    && 0 < |ss| <= |x.streams|
    && u in x.registry && x.registry[u].stream == |ss| - 1
    && (forall h :: 0 <= h < |ss| ==> x.streams[h].uuid == ss[h].uuid)
    && (forall h :: |ss| <= h < |x.streams| ==> x.streams[h].uuid != u)
  }

  predicate Tracking(x: World, u: Uuid, ss: seq<Stream>) {
    Consistent(x) && Follows(x, u, ss)
  }

  lemma QuietRegister(x: World, u: Uuid, ss: seq<Stream>, v: Uuid, meta: Metadata)
    requires Tracking(x, u, ss) && v != u
    ensures Follows(Register(x, v, meta), u, ss)
    ensures Register(x, v, meta).streams[|ss| - 1].sink == x.streams[|ss| - 1].sink
  {
    var x' := Register(x, v, meta);
    assert forall h :: 0 <= h < |x.streams| ==> x'.streams[h] == x.streams[h] by {
      forall h | 0 <= h < |x.streams| ensures x'.streams[h] == x.streams[h] {
        assert x'.streams[..|x.streams|][h] == x'.streams[h];
      }
    }
  }

  lemma QuietPush(x: World, u: Uuid, ss: seq<Stream>, v: Uuid, chunk: Chunk)
    requires Tracking(x, u, ss)
    ensures Follows(Push(x, v, chunk), u, ss)
    ensures Push(x, v, chunk).streams[|ss| - 1].sink.queue
         == x.streams[|ss| - 1].sink.queue + if v == u then [chunk] else []
  {
    if v in x.registry {
      TransferProperties.PushAppends(x, v, chunk);
      if v != u {
        assert x.registry[v].stream != x.registry[u].stream;
      }
    }
  }

  lemma QuietFinish(x: World, u: Uuid, ss: seq<Stream>, v: Uuid, ending: Status)
    requires Tracking(x, u, ss) && v != u && ending != Open
    ensures Follows(Finish(x, v, ending), u, ss)
    ensures Finish(x, v, ending).streams[|ss| - 1].sink == x.streams[|ss| - 1].sink
  {
    if v in x.registry {
      assert x.registry[v].stream != x.registry[u].stream;
    }
  }

  lemma QuietPull(x: World, u: Uuid, ss: seq<Stream>, g: nat)
    requires Tracking(x, u, ss)
    ensures Follows(PullStream(x, g).next, u, ss)
    ensures PullStream(x, g).next.streams[|ss| - 1].sink == x.streams[|ss| - 1].sink
  {
  }

  lemma QuietCancel(x: World, u: Uuid, ss: seq<Stream>, g: nat, reason: Option<string>)
    requires Tracking(x, u, ss)
    requires g >= |ss| || ss[g].uuid != u
    ensures Follows(CancelStream(x, g, reason).next, u, ss)
    ensures CancelStream(x, g, reason).next.streams[|ss| - 1].sink == x.streams[|ss| - 1].sink
  {
    if g < |x.streams| {
      assert x.streams[g].uuid != u;
    }
  }

  /** A quiet event keeps `u` on its stream and appends to that stream exactly the chunk
      of a push for `u`. */
  lemma StepQuiet(x: World, u: Uuid, ss: seq<Stream>, ev: Event)
    requires Tracking(x, u, ss)
    requires Quiet(ss, u, ev)
    ensures Tracking(Step(x, ev).next, u, ss)
    ensures Step(x, ev).next.streams[|ss| - 1].sink.queue
         == x.streams[|ss| - 1].sink.queue + if ev.PushData? && ev.uuid == u then [ev.chunk] else []
  {
    var q := x.streams[|ss| - 1].sink.queue;
    TransferProperties.StepConsistent(x, ev);
    TakeDrop(q, 0);
    match ev
    case RegisterStream(v, meta) =>
      QuietRegister(x, u, ss, v, meta);
    case PushData(v, chunk) =>
      QuietPush(x, u, ss, v, chunk);
    case CloseStream(v) =>
      QuietFinish(x, u, ss, v, Closed);
    case AbortStream(v) =>
      QuietFinish(x, u, ss, v, Errored);
    case Pull(g) =>
      QuietPull(x, u, ss, g);
    case Cancel(g, reason) =>
      QuietCancel(x, u, ss, g, reason);
  }

  /** A run of quiet events appends to `u`'s stream exactly the chunks pushed for `u`, in order. */
  lemma {:induction false} QuietRun(x: World, u: Uuid, ss: seq<Stream>, evs: seq<Event>)
    requires Tracking(x, u, ss)
    requires forall i :: 0 <= i < |evs| ==> Quiet(ss, u, evs[i])
    ensures Tracking(Run(x, evs).next, u, ss)
    ensures Run(x, evs).next.streams[|ss| - 1].sink.queue == x.streams[|ss| - 1].sink.queue + Chunks(evs, u)
    decreases |evs|
  {
    var h := |ss| - 1;
    if |evs| == 0 {
      assert x.streams[h].sink.queue + [] == x.streams[h].sink.queue;
    } else {
      var x1 := Step(x, evs[0]).next;
      StepQuiet(x, u, ss, evs[0]);
      QuietRun(x1, u, ss, evs[1..]);
      var head := if evs[0].PushData? && evs[0].uuid == u then [evs[0].chunk] else [];
      ConcatAssoc(x.streams[h].sink.queue, head, Chunks(evs[1..], u));
    }
  }

  /** Register `u`, then any events that leave `u` alone, then close: the stream the
      registration created ends up holding exactly the chunks pushed for `u`, in push order,
      followed by end-of-data; its bytes are the bytes sent; its reader never cancelled; and
      the id is gone. Traffic for other ids, pulls and re-registrations of other ids may
      come between the pushes. */
  lemma DeliveryAmongOthers(w: World, u: Uuid, meta: Metadata, evs: seq<Event>)
    requires Consistent(w)
    requires forall i :: 0 <= i < |evs| ==> Quiet(w.streams + [Stream(u, Sink([], Open), false, false)], u, evs[i])
    ensures var r := Run(w, [RegisterStream(u, meta)] + evs + [CloseStream(u)]);
            && |w.streams| < |r.next.streams|
            && r.next.streams[|w.streams|].uuid == u
            && r.next.streams[|w.streams|].sink == Sink(Chunks(evs, u), Closed)
            && Flatten(r.next.streams[|w.streams|].sink.queue) == Payload(evs, u)
            && !r.next.streams[|w.streams|].cancelled
            && u !in r.next.registry
  {
    var ss := w.streams + [Stream(u, Sink([], Open), false, false)];
    var x1 := Step(w, RegisterStream(u, meta)).next;
    TransferProperties.RegisterReplaces(w, u, meta);
    TransferProperties.StepConsistent(w, RegisterStream(u, meta));
    assert Tracking(x1, u, ss);
    QuietThenClose(x1, u, ss, evs);
    RunCons(w, RegisterStream(u, meta), evs + [CloseStream(u)]);
    ConcatAssoc([RegisterStream(u, meta)], evs, [CloseStream(u)]);
    TakeDrop(Chunks(evs, u), 0);
    FlattenChunks(evs, u);
  }

  /** Quiet events followed by the close of `u`: `u`'s stream gains the chunks pushed for
      `u` and is closed, and `u` is no longer registered. */
  lemma QuietThenClose(x: World, u: Uuid, ss: seq<Stream>, evs: seq<Event>)
    requires Tracking(x, u, ss)
    requires forall i :: 0 <= i < |evs| ==> Quiet(ss, u, evs[i])
    ensures var r := Run(x, evs + [CloseStream(u)]);
            var s := x.streams[|ss| - 1];
            && |ss| <= |r.next.streams|
            && r.next.streams[|ss| - 1].uuid == s.uuid
            && r.next.streams[|ss| - 1].sink == Sink(s.sink.queue + Chunks(evs, u), Closed)
            && !r.next.streams[|ss| - 1].cancelled
            && u !in r.next.registry
  {
    var h := |ss| - 1;
    QuietRun(x, u, ss, evs);
    var x2 := Run(x, evs).next;
    assert x2.streams[h].uuid == x.streams[h].uuid && !x2.streams[h].cancelled;
    assert u in x2.registry && x2.registry[u].stream == h;
    TransferProperties.CloseRemoves(x2, u);
    RunSingle(x2, CloseStream(u));
    RunAppend(x, evs, [CloseStream(u)]);
    var x3 := Run(x, evs + [CloseStream(u)]).next;
    assert x3 == Step(x2, CloseStream(u)).next;
    assert x3.streams == x2.streams[h := x2.streams[h].(sink := Sink(x2.streams[h].sink.queue, Closed))];
  }

  // ---------------------------------------------------------------------------------
  // Stale callbacks: a stream's callbacks look its entry up by id
  // ---------------------------------------------------------------------------------

  /** After a re-registration, cancelling the earlier stream removes the newer entry: the new
      stream is left open with no entry, so later pushes for the id are dropped. */
  lemma StaleCancelDropsNewer(w: World, u: Uuid, meta: Metadata, reason: Option<string>, chunk: Chunk)
    requires Consistent(w)
    requires u in w.registry
    ensures var w1 := Step(w, RegisterStream(u, meta)).next;
            var w2 := Step(w1, Cancel(w.registry[u].stream, reason)).next;
            && u !in w2.registry
            && w2.streams[|w.streams|] == Stream(u, Sink([], Open), false, false)
            && Step(w2, PushData(u, chunk)).next == w2
  {
  }

  /** After a re-registration, a pull of the earlier stream marks the newer entry as waiting. */
  lemma StalePullMarksNewer(w: World, u: Uuid, meta: Metadata)
    requires Consistent(w)
    requires u in w.registry
    ensures var w1 := Step(w, RegisterStream(u, meta)).next;
            var w2 := Step(w1, Pull(w.registry[u].stream)).next;
            && u in w2.registry
            && w2.registry[u] == Entry(|w.streams|, meta, true)
  {
  }

  // ---------------------------------------------------------------------------------
  // Counting notifications
  // ---------------------------------------------------------------------------------

  /** Occurrences of `n` in `ns`. */
  function CountOf(ns: seq<Notification>, n: Notification): nat {
    if |ns| == 0 then 0 else (if ns[0] == n then 1 else 0) + CountOf(ns[1..], n)
  }

  lemma {:induction false} CountOfAppend(a: seq<Notification>, b: seq<Notification>, n: Notification)
    ensures CountOf(a + b, n) == CountOf(a, n) + CountOf(b, n)
  {
    if |a| == 0 {
      assert a + b == b;
    } else {
      assert (a + b)[1..] == a[1..] + b;
      CountOfAppend(a[1..], b, n);
    }
  }

  /** Streams registered under `u`. */
  function StreamsOf(ss: seq<Stream>, u: Uuid): nat {
    if |ss| == 0 then 0 else (if ss[0].uuid == u then 1 else 0) + StreamsOf(ss[1..], u)
  }

  /** Streams registered under `u` that have announced their start. */
  function StartedOf(ss: seq<Stream>, u: Uuid): nat {
    if |ss| == 0 then 0 else (if ss[0].uuid == u && ss[0].started then 1 else 0) + StartedOf(ss[1..], u)
  }

  /** `REGISTER_STREAM` messages for `u`. */
  function Registrations(evs: seq<Event>, u: Uuid): nat {
    if |evs| == 0 then 0 else (if evs[0].RegisterStream? && evs[0].uuid == u then 1 else 0) + Registrations(evs[1..], u)
  }

  lemma {:induction false} TallyUpdate(ss: seq<Stream>, h: nat, x: Stream, u: Uuid)
    requires h < |ss| && x.uuid == ss[h].uuid
    ensures StreamsOf(ss[h := x], u) == StreamsOf(ss, u)
    ensures StartedOf(ss[h := x], u) + (if ss[h].uuid == u && ss[h].started then 1 else 0)
         == StartedOf(ss, u) + (if x.uuid == u && x.started then 1 else 0)
  {
    if h > 0 {
      assert ss[h := x][1..] == ss[1..][h - 1 := x];
      TallyUpdate(ss[1..], h - 1, x, u);
    } else {
      assert ss[h := x][1..] == ss[1..];
    }
  }

  lemma {:induction false} TallyAppend(ss: seq<Stream>, x: Stream, u: Uuid)
    ensures StreamsOf(ss + [x], u) == StreamsOf(ss, u) + (if x.uuid == u then 1 else 0)
    ensures StartedOf(ss + [x], u) == StartedOf(ss, u) + (if x.uuid == u && x.started then 1 else 0)
  {
    if |ss| == 0 {
      assert ss + [x] == [x];
      assert [x][1..] == [];
    } else {
      assert (ss + [x])[1..] == ss[1..] + [x];
      TallyAppend(ss[1..], x, u);
    }
  }

  lemma {:induction false} StartedAtMostStreams(ss: seq<Stream>, u: Uuid)
    ensures StartedOf(ss, u) <= StreamsOf(ss, u)
  {
    if |ss| > 0 {
      StartedAtMostStreams(ss[1..], u);
    }
  }

  /** Each step's start announcements for `u` are exactly the streams of `u` it flips to
      started, and only a registration of `u` adds a stream of `u`. */
  lemma StepStartedAccounting(w: World, ev: Event, u: Uuid)
    ensures var t := Step(w, ev);
            && CountOf(t.sent, StreamStarted(u)) + StartedOf(w.streams, u) == StartedOf(t.next.streams, u)
            && StreamsOf(t.next.streams, u) == StreamsOf(w.streams, u) + (if ev.RegisterStream? && ev.uuid == u then 1 else 0)
  {
    match ev
    case RegisterStream(v, meta) =>
      TallyAppend(w.streams, Stream(v, Sink([], Open), false, false), u);
    case PushData(v, chunk) =>
      PushAccounting(w, v, chunk, u);
    case CloseStream(v) =>
      FinishAccounting(w, v, Closed, u);
    case AbortStream(v) =>
      FinishAccounting(w, v, Errored, u);
    case Pull(h) =>
      PullAccounting(w, h, u);
    case Cancel(h, reason) =>
      if h < |w.streams| {
        TallyUpdate(w.streams, h, Step(w, ev).next.streams[h], u);
      }
  }

  /** A push starts nothing and adds no stream. */
  lemma PushAccounting(w: World, v: Uuid, chunk: Chunk, u: Uuid)
    ensures StartedOf(Push(w, v, chunk).streams, u) == StartedOf(w.streams, u)
    ensures StreamsOf(Push(w, v, chunk).streams, u) == StreamsOf(w.streams, u)
  {
    if v in w.registry && w.streams[w.registry[v].stream].sink.status == Open {
      var h := w.registry[v].stream;
      TallyUpdate(w.streams, h, Push(w, v, chunk).streams[h], u);
    }
  }

  /** Closing or aborting starts nothing and adds no stream. */
  lemma FinishAccounting(w: World, v: Uuid, ending: Status, u: Uuid)
    requires ending != Open
    ensures StartedOf(Finish(w, v, ending).streams, u) == StartedOf(w.streams, u)
    ensures StreamsOf(Finish(w, v, ending).streams, u) == StreamsOf(w.streams, u)
  {
    if v in w.registry && w.streams[w.registry[v].stream].sink.status == Open {
      var h := w.registry[v].stream;
      TallyUpdate(w.streams, h, Finish(w, v, ending).streams[h], u);
    }
  }

  /** A pull announces the start of `u`'s stream exactly when it flips that stream to started. */
  lemma PullAccounting(w: World, h: nat, u: Uuid)
    ensures var t := PullStream(w, h);
            && CountOf(t.sent, StreamStarted(u)) + StartedOf(w.streams, u) == StartedOf(t.next.streams, u)
            && StreamsOf(t.next.streams, u) == StreamsOf(w.streams, u)
  {
    var t := PullStream(w, h);
    if h < |w.streams| {
      TallyUpdate(w.streams, h, t.next.streams[h], u);
      var s := w.streams[h];
      var started := if s.started then [] else [StreamStarted(s.uuid)];
      CountOfAppend(started, [PullData(s.uuid)], StreamStarted(u));
      assert CountOf([PullData(s.uuid)], StreamStarted(u)) == 0;
    }
  }

  /** Over any run, the start announcements for `u` are exactly the streams of `u` that
      became started, and the streams of `u` grow only by registrations of `u`. */
  lemma {:induction false} RunStartedAccounting(w: World, evs: seq<Event>, u: Uuid)
    ensures var t := Run(w, evs);
            && CountOf(t.sent, StreamStarted(u)) + StartedOf(w.streams, u) == StartedOf(t.next.streams, u)
            && StreamsOf(t.next.streams, u) == StreamsOf(w.streams, u) + Registrations(evs, u)
    decreases |evs|
  {
    if |evs| > 0 {
      var first := Step(w, evs[0]);
      StepStartedAccounting(w, evs[0], u);
      RunStartedAccounting(first.next, evs[1..], u);
      CountOfAppend(first.sent, Run(first.next, evs[1..]).sent, StreamStarted(u));
    }
  }

  /** From the start, `STREAM_STARTED` for an id is broadcast at most once per registration
      of that id, whatever the events; with a single registration, at most once. */
  lemma StartedOncePerRegistration(evs: seq<Event>, u: Uuid)
    ensures CountOf(Run(Init, evs).sent, StreamStarted(u)) <= Registrations(evs, u)
  {
    RunStartedAccounting(Init, evs, u);
    StartedAtMostStreams(Run(Init, evs).next.streams, u);
  }

  /** Pulling one stream n times asks for data n times and announces the start at most once,
      before the first request, and only if the stream had not started. */
  lemma {:induction false} PullsNotify(w: World, h: nat, n: nat)
    requires h < |w.streams|
    ensures var t := Run(w, Pulls(h, n));
            var u := w.streams[h].uuid;
            var announce := n > 0 && !w.streams[h].started;
            && CountOf(t.sent, PullData(u)) == n
            && CountOf(t.sent, StreamStarted(u)) == (if announce then 1 else 0)
            && |t.sent| == n + (if announce then 1 else 0)
            && (announce ==> t.sent[0] == StreamStarted(u) && t.sent[1] == PullData(u))
    decreases n
  {
    if n > 0 {
      var u := w.streams[h].uuid;
      var first := Step(w, Pull(h));
      TransferProperties.PullNotifies(w, h);
      var w1 := first.next;
      assert w1.streams[h].uuid == u && w1.streams[h].started;
      assert Pulls(h, n)[1..] == Pulls(h, n - 1);
      PullsNotify(w1, h, n - 1);
      var rest := Run(w1, Pulls(h, n - 1));
      CountOfAppend(first.sent, rest.sent, PullData(u));
      CountOfAppend(first.sent, rest.sent, StreamStarted(u));
      if !w.streams[h].started {
        CountOfAppend([StreamStarted(u)], [PullData(u)], PullData(u));
        CountOfAppend([StreamStarted(u)], [PullData(u)], StreamStarted(u));
      }
    }
  }

  // ---------------------------------------------------------------------------------
  // The two end-to-end scenarios
  // ---------------------------------------------------------------------------------

  /** A world holding the single transfer "A" on stream 0, as the first scenario goes through it. */
  function OnlyA(m: Metadata, registered: bool, pending: bool, q: seq<Chunk>, status: Status, started: bool): World {
    World(if registered then map["A" := Entry(0, m, pending)] else map[],
          [Stream("A", Sink(q, status), started, false)])
  }

  lemma ScenarioASteps(m: Metadata, c1: Chunk, c2: Chunk)
    ensures Step(Init, RegisterStream("A", m)) == Transition(OnlyA(m, true, false, [], Open, false), [])
    ensures Step(OnlyA(m, true, false, [], Open, false), Pull(0))
         == Transition(OnlyA(m, true, true, [], Open, true), [StreamStarted("A"), PullData("A")])
    ensures Step(OnlyA(m, true, true, [], Open, true), PushData("A", c1))
         == Transition(OnlyA(m, true, false, [c1], Open, true), [])
    ensures Step(OnlyA(m, true, false, [c1], Open, true), PushData("A", c2))
         == Transition(OnlyA(m, true, false, [c1, c2], Open, true), [])
    ensures Step(OnlyA(m, true, false, [c1, c2], Open, true), CloseStream("A"))
         == Transition(OnlyA(m, false, false, [c1, c2], Closed, true), [])
  {
    assert [] + [c1] == [c1];
    assert [c1] + [c2] == [c1, c2];
    assert map["A" := Entry(0, m, false)] - {"A"} == map[];
  }

  /** Register "A" (report.pdf, 10 bytes), the runtime pulls, the producer pushes 4 then 6
      bytes and closes: start then pull-request are broadcast, the consumer's stream holds the
      two chunks in order followed by end-of-data, and "A" is no longer registered. */
  lemma ScenarioA(c1: Chunk, c2: Chunk)
    requires |c1| == 4 && |c2| == 6
    ensures var r := Run(Init, [RegisterStream("A", Metadata("report.pdf", None, Some(10))), Pull(0),
                                PushData("A", c1), PushData("A", c2), CloseStream("A")]);
            && r.sent == [StreamStarted("A"), PullData("A")]
            && |r.next.streams| == 1
            && r.next.streams[0].sink == Sink([c1, c2], Closed)
            && "A" !in r.next.registry
  {
    var m := Metadata("report.pdf", None, Some(10));
    var e1, e2, e3, e4, e5 := RegisterStream("A", m), Pull(0), PushData("A", c1), PushData("A", c2), CloseStream("A");
    var w1, w2, w3, w4, w5 := OnlyA(m, true, false, [], Open, false), OnlyA(m, true, true, [], Open, true),
                              OnlyA(m, true, false, [c1], Open, true), OnlyA(m, true, false, [c1, c2], Open, true),
                              OnlyA(m, false, false, [c1, c2], Closed, true);
    ScenarioASteps(m, c1, c2);
    RunSingle(w4, e5);
    assert Run(w3, [e4, e5]) == Transition(w5, []) by {
      RunThrough(w3, e4, [e5], Transition(w4, []), Transition(w5, []));
      Display2(e4, e5);
    }
    assert Run(w2, [e3, e4, e5]) == Transition(w5, []) by {
      RunThrough(w2, e3, [e4, e5], Transition(w3, []), Transition(w5, []));
      Display3(e3, e4, e5);
    }
    assert Run(w1, [e2, e3, e4, e5]) == Transition(w5, [StreamStarted("A"), PullData("A")]) by {
      RunThrough(w1, e2, [e3, e4, e5], Transition(w2, [StreamStarted("A"), PullData("A")]), Transition(w5, []));
      Display4(e2, e3, e4, e5);
    }
    RunThrough(Init, e1, [e2, e3, e4, e5], Transition(w1, []), Transition(w5, [StreamStarted("A"), PullData("A")]));
    Display5(e1, e2, e3, e4, e5);
  }

  /** Register "B"; the runtime pulls once as soon as the stream is set up, which announces
      the start and asks for data; then the producer aborts. Only the start and the request
      were broadcast (the abort notification is for consumer cancels only), the stream fails
      with nothing delivered, and "B" is gone. */
  lemma ScenarioB(meta: Metadata)
    ensures var r := Run(Init, [RegisterStream("B", meta), Pull(0), AbortStream("B")]);
            && r.sent == [StreamStarted("B"), PullData("B")]
            && r.next.streams == [Stream("B", Sink([], Errored), true, false)]
            && "B" !in r.next.registry
  {
    var e1, e2, e3 := RegisterStream("B", meta), Pull(0), AbortStream("B");
    var w1 := World(map["B" := Entry(0, meta, false)], [Stream("B", Sink([], Open), false, false)]);
    var w2 := World(map["B" := Entry(0, meta, true)], [Stream("B", Sink([], Open), true, false)]);
    var w3 := World(map[], [Stream("B", Sink([], Errored), true, false)]);
    var announced := [StreamStarted("B"), PullData("B")];
    assert Step(Init, e1) == Transition(w1, []);
    assert Step(w1, e2) == Transition(w2, announced);
    assert Step(w2, e3) == Transition(w3, []) by {
      assert map["B" := Entry(0, meta, true)] - {"B"} == map[];
    }
    RunSingle(w2, e3);
    RunThrough(w1, e2, [e3], Transition(w2, announced), Transition(w3, []));
    Display2(e2, e3);
    assert announced + [] == announced;
    RunThrough(Init, e1, [e2, e3], Transition(w1, []), Transition(w3, announced));
    Display3(e1, e2, e3);
  }
}

=== FILE: transfer_properties.dfy ===
/** What the worker's handlers promise, one event at a time and over whole runs. */
module TransferProperties {
  import opened Base
  import opened Transfers

  // ---------------------------------------------------------------------------------
  // The reachable-state invariant
  // ---------------------------------------------------------------------------------

  lemma InitConsistent()
    ensures Consistent(Init)
  {
  }

  /** Every step keeps each entry on its own open, uncancelled stream. In particular the
      throwing enqueue of line 100, the throwing `close()` caught at line 114 and the no-op
      `error()` of line 126 are never reached from a reachable world; the `catch` of line 127
      is never reached at all, since `error()` does not throw. */
  lemma StepConsistent(w: World, ev: Event)
    requires Consistent(w)
    ensures Consistent(Step(w, ev).next)
  {
    match ev
    case RegisterStream(u, meta) =>
    case PushData(u, chunk) =>
      PushConsistent(w, u, chunk);
    case CloseStream(u) =>
      FinishConsistent(w, u, Closed);
    case AbortStream(u) =>
      FinishConsistent(w, u, Errored);
    case Pull(h) =>
      PullConsistent(w, h);
    case Cancel(h, reason) =>
      CancelConsistent(w, h, reason);
  }

  /** A push only adds to the queue of an open stream. */
  lemma PushConsistent(w: World, u: Uuid, chunk: Chunk)
    requires Consistent(w)
    ensures Consistent(Push(w, u, chunk))
  {
    var w' := Push(w, u, chunk);
    if u in w.registry {
      var h := w.registry[u].stream;
      forall v | v in w'.registry
        ensures w'.streams[w'.registry[v].stream].uuid == v
        ensures w'.streams[w'.registry[v].stream].sink.status == Open
        ensures !w'.streams[w'.registry[v].stream].cancelled
      {
        if v != u {
          assert w.streams[w.registry[v].stream].uuid == v;
          assert w.registry[v].stream != h;
        }
      }
    }
  }

  /** A pull only marks an entry as waiting. */
  lemma PullConsistent(w: World, h: nat)
    requires Consistent(w)
    ensures Consistent(PullStream(w, h).next)
  {
    var w' := PullStream(w, h).next;
    if h < |w.streams| {
      forall v | v in w'.registry
        ensures w'.streams[w'.registry[v].stream].uuid == v
        ensures w'.streams[w'.registry[v].stream].sink.status == Open
        ensures !w'.streams[w'.registry[v].stream].cancelled
      {
        assert w'.registry[v].stream == w.registry[v].stream;
      }
    }
  }

  /** A cancel removes the cancelled stream's own entry, if any, and no other. */
  lemma CancelConsistent(w: World, h: nat, reason: Option<string>)
    requires Consistent(w)
    ensures Consistent(CancelStream(w, h, reason).next)
  {
    var w' := CancelStream(w, h, reason).next;
    if h < |w.streams| {
      var u := w.streams[h].uuid;
      forall v | v in w'.registry
        ensures w'.streams[w'.registry[v].stream].uuid == v
        ensures w'.streams[w'.registry[v].stream].sink.status == Open
        ensures !w'.streams[w'.registry[v].stream].cancelled
      {
        assert v != u && w'.registry[v] == w.registry[v];
        assert w.streams[w.registry[v].stream].uuid == v;
        assert w.registry[v].stream != h;
      }
    }
  }

  lemma FinishConsistent(w: World, u: Uuid, ending: Status)
    requires Consistent(w)
    requires ending != Open
    ensures Consistent(Finish(w, u, ending))
  {
    var w' := Finish(w, u, ending);
    forall v | v in w'.registry
      ensures w'.streams[w'.registry[v].stream].uuid == v
      ensures w'.streams[w'.registry[v].stream].sink.status == Open
      ensures !w'.streams[w'.registry[v].stream].cancelled
    {
      assert v != u && w'.registry[v] == w.registry[v];
      assert w.streams[w.registry[v].stream].uuid == v;
      if u in w.registry {
        assert w.registry[v].stream != w.registry[u].stream;
      }
    }
  }

  /** Every run from a consistent world, and so every run from the start, stays consistent. */
  lemma {:induction false} RunConsistent(w: World, evs: seq<Event>)
    requires Consistent(w)
    ensures Consistent(Run(w, evs).next)
    decreases |evs|
  {
    if |evs| > 0 {
      StepConsistent(w, evs[0]);
      RunConsistent(Step(w, evs[0]).next, evs[1..]);
    }
  }

  // ---------------------------------------------------------------------------------
  // One event at a time
  // ---------------------------------------------------------------------------------

  /** Registration leaves exactly one entry for the id, on a fresh open stream with nothing
      queued, nothing started and no pull waiting; it replaces any earlier entry outright,
      keeps every earlier stream as it was, touches no other id and notifies nobody. */
  lemma RegisterReplaces(w: World, u: Uuid, meta: Metadata)
    ensures var t := Step(w, RegisterStream(u, meta));
            && t.sent == []
            && u in t.next.registry
            && t.next.registry[u] == Entry(|w.streams|, meta, false)
            && t.next.streams == w.streams + [Stream(u, Sink([], Open), false, false)]
            && SameExcept(w.registry, t.next.registry, u)
  {
  }

  /** A push for an unregistered id changes nothing and notifies nobody. */
  lemma PushUnknownIgnored(w: World, u: Uuid, chunk: Chunk)
    requires u !in w.registry
    ensures Step(w, PushData(u, chunk)) == Transition(w, [])
  {
  }

  /** In a reachable world, a push for a registered id appends exactly that chunk to the end of
      that transfer's queue and releases the waiting pull; nothing else changes. */
  lemma PushAppends(w: World, u: Uuid, chunk: Chunk)
    requires Consistent(w)
    requires u in w.registry
    ensures var t := Step(w, PushData(u, chunk));
            var h := w.registry[u].stream;
            && t.sent == []
            && t.next.registry == w.registry[u := w.registry[u].(pendingPull := false)]
            && |t.next.streams| == |w.streams|
            && t.next.streams[h].sink == Sink(w.streams[h].sink.queue + [chunk], Open)
            && (forall g :: 0 <= g < |w.streams| && g != h ==> t.next.streams[g] == w.streams[g])
  {
  }

  /** Closing removes the id whether or not it was registered, notifies nobody and touches no
      other id; in a reachable world the transfer's sink ends with end-of-data after exactly
      the chunks it had. */
  lemma CloseRemoves(w: World, u: Uuid)
    requires Consistent(w)
    ensures var t := Step(w, CloseStream(u));
            && t.sent == []
            && u !in t.next.registry
            && SameExcept(w.registry, t.next.registry, u)
            && (u in w.registry ==>
                  var h := w.registry[u].stream;
                  t.next.streams == w.streams[h := w.streams[h].(sink := Sink(w.streams[h].sink.queue, Closed))])
            && (u !in w.registry ==> t.next.streams == w.streams)
  {
  }

  /** Aborting removes the id whether or not it was registered, notifies nobody (the
      `STREAM_ABORTED` notification is reserved for the consumer's cancel) and touches no other
      id; in a reachable world the transfer's sink becomes errored. */
  lemma AbortRemoves(w: World, u: Uuid)
    requires Consistent(w)
    ensures var t := Step(w, AbortStream(u));
            && t.sent == []
            && u !in t.next.registry
            && SameExcept(w.registry, t.next.registry, u)
            && (u in w.registry ==>
                  var h := w.registry[u].stream;
                  t.next.streams == w.streams[h := w.streams[h].(sink := Sink(w.streams[h].sink.queue, Errored))])
            && (u !in w.registry ==> t.next.streams == w.streams)
  {
  }

  /** After a close or an abort, a push for that id is a no-op. */
  lemma PushAfterFinishIgnored(w: World, u: Uuid, chunk: Chunk, closing: bool)
    ensures var finish := if closing then CloseStream(u) else AbortStream(u);
            Run(w, [finish, PushData(u, chunk)]) == Run(w, [finish])
  {
    var finish := if closing then CloseStream(u) else AbortStream(u);
    var w1 := Step(w, finish).next;
    assert [finish, PushData(u, chunk)][1..] == [PushData(u, chunk)];
    assert [finish][1..] == [];
    assert Run(w1, [PushData(u, chunk)]) == Transition(w1, []);
  }

  /** A pull asks the producer for data every time, and announces the start first exactly when
      its stream has not started before; the waiting flag is set only on an entry registered
      under the stream's id, and otherwise the registry is untouched. */
  lemma PullNotifies(w: World, h: nat)
    requires h < |w.streams|
    ensures var t := Step(w, Pull(h));
            var u := w.streams[h].uuid;
            && t.sent == (if w.streams[h].started then [] else [StreamStarted(u)]) + [PullData(u)]
            && t.next.streams == w.streams[h := w.streams[h].(started := true)]
            && (u in w.registry ==> t.next.registry == w.registry[u := w.registry[u].(pendingPull := true)])
            && (u !in w.registry ==> t.next.registry == w.registry)
  {
  }

  /** A second pull before a push changes no state: it only overwrites the waiting flag. */
  lemma PullTwiceSameState(w: World, h: nat)
    ensures Step(Step(w, Pull(h)).next, Pull(h)).next == Step(w, Pull(h)).next
  {
  }

  /** A consumer cancel notifies the producer exactly once, with the given reason or
      `User cancelled`, removes the id and touches no other id. */
  lemma CancelNotifies(w: World, h: nat, reason: Option<string>)
    requires h < |w.streams|
    ensures var t := Step(w, Cancel(h, reason));
            var u := w.streams[h].uuid;
            && t.sent == [StreamAborted(u, if reason.Some? && reason.value != "" then reason.value else "User cancelled")]
            && u !in t.next.registry
            && SameExcept(w.registry, t.next.registry, u)
  {
  }
}

=== FILE: transfers.dfy ===
/** The worker's transfer registry and its `message` handler (download-worker.js,
    lines 1 and 48-135), together with the `pull` and `cancel` callbacks of each
    registration's delivery stream (lines 62-90).

    Every handler runs to completion before the next event, so the whole worker is a
    sequential transition system: `Step(world, event)` gives the next world and the
    notifications broadcast meanwhile. */
module Transfers {
  import opened Base

  type Uuid = string

  /** How the write side of a delivery stream stands: still accepting chunks, closed
      (the reader sees end-of-data after the queued chunks) or errored (the reader sees a failure).
      A stream its reader has cancelled is really closed with its queue emptied; the model keeps
      it `Open` with its queue and records the cancellation in `Stream.cancelled` instead. */
  datatype Status = Open | Closed | Errored

  /** The stream controller, abstracted: every chunk enqueued so far, in order, and its status. */
  datatype Sink = Sink(queue: seq<Chunk>, status: Status)

  /** The `payload` of `REGISTER_STREAM`; absent type and size are `None`. */
  datatype Metadata = Metadata(filename: string, contentType: Option<string>, size: Option<Size>)

  /** One delivery stream, created by one registration. Its closure holds the `uuid` it was
      registered under, its controller and its own `startedSignalSent` flag (line 55);
      `cancelled` records that its consumer has cancelled the read, and stands in for the
      closing and emptying of the stream that the cancellation does. */
  datatype Stream = Stream(uuid: Uuid, sink: Sink, started: bool, cancelled: bool)

  /** A registry entry (line 93): which stream it delivers to, its metadata, and whether a
      pull is waiting for the next push (`pendingPullResolver` being set). */
  datatype Entry = Entry(stream: nat, meta: Metadata, pendingPull: bool)

  /** `activeStreams`, plus every stream ever created (a handle is an index into `streams`).
      Streams outlive their registry entries: the consumer may still hold one after it is removed. */
  datatype WorldState = World(registry: map<Uuid, Entry>, streams: seq<Stream>)

  /** Every registry entry names a stream that exists. */
  predicate WellFormed(w: WorldState) {
    forall u :: u in w.registry ==> w.registry[u].stream < |w.streams|
  }

  /** The worlds the handlers work on: those whose entries all name existing streams. Each
      handler keeps a world in this type, which is checked where the handler builds it. */
  type World = w: WorldState | WellFormed(w) witness World(map[], [])

  /** Inbound messages from the application, and calls the runtime makes into a stream's
      underlying source (`pull`, `cancel`), naming the stream by its handle. */
  datatype Event =
    | RegisterStream(uuid: Uuid, meta: Metadata)
    | PushData(uuid: Uuid, chunk: Chunk)
    | CloseStream(uuid: Uuid)
    | AbortStream(uuid: Uuid)
    | Pull(handle: nat)
    | Cancel(handle: nat, reason: Option<string>)

  /** Outbound messages, broadcast to every client by `notifyClients`. */
  datatype Notification =
    | StreamStarted(uuid: Uuid)
    | PullData(uuid: Uuid)
    | StreamAborted(uuid: Uuid, reason: string)

  datatype Transition = Transition(next: World, sent: seq<Notification>)

  /** The worker as it starts: no transfers, no streams. */
  const Init := World(map[], [])

  /** The two registries agree on every id other than `u`. */
  ghost predicate SameExcept(r1: map<Uuid, Entry>, r2: map<Uuid, Entry>, u: Uuid) {
    forall v :: v != u ==> (v in r1 <==> v in r2) && (v in r1 ==> r1[v] == r2[v])
  }

  /** `REGISTER_STREAM` (lines 52-94): a fresh open stream with its own unset started flag,
      and an entry for it that replaces whatever `uuid` held. The previous stream, if any, is
      left as it was. */
  function Register(w: World, uuid: Uuid, meta: Metadata): (w': World)
    ensures |w'.streams| == |w.streams| + 1 && w'.streams[..|w.streams|] == w.streams
    ensures w'.registry.Keys == w.registry.Keys + {uuid}
    ensures w'.registry[uuid].stream == |w.streams| && w'.streams[|w.streams|].uuid == uuid
    ensures w'.streams[|w.streams|].sink == Sink([], Open) && !w'.streams[|w.streams|].started
    ensures forall v :: v in w.registry && v != uuid ==> w'.registry[v] == w.registry[v]
  {
    World(w.registry[uuid := Entry(|w.streams|, meta, false)],
          w.streams + [Stream(uuid, Sink([], Open), false, false)])
  }

  /** `PUSH_DATA` (lines 97-107): enqueue the chunk on the registered stream and release a
      waiting pull. An unknown id is ignored. Enqueueing on a stream that is no longer open
      throws, which ends the handler before anything changes. */
  function Push(w: World, uuid: Uuid, chunk: Chunk): (w': World)
    ensures w'.registry.Keys == w.registry.Keys && |w'.streams| == |w.streams|
    ensures forall h :: 0 <= h < |w.streams| ==>
              && w'.streams[h].uuid == w.streams[h].uuid
              && w'.streams[h].sink.status == w.streams[h].sink.status
              && (w'.streams[h].sink.queue == w.streams[h].sink.queue
                  || (w'.streams[h].sink.queue == w.streams[h].sink.queue + [chunk]
                      && w.streams[h].sink.status == Open && uuid in w.registry && w.registry[uuid].stream == h))
  {
    if uuid !in w.registry then w
    else
      var e := w.registry[uuid];
      var s := w.streams[e.stream];
      if s.sink.status != Open then w
      else
        World(w.registry[uuid := e.(pendingPull := false)],
              w.streams[e.stream := s.(sink := s.sink.(queue := s.sink.queue + [chunk]))])
  }

  /** `CLOSE_STREAM` (lines 109-120) with `ending` Closed, `ABORT_STREAM` (lines 122-133) with
      `ending` Errored: end the registered stream's sink and drop the entry. On a sink that can
      no longer be ended, `close()` throws inside the `try` and is caught, while `error()` does
      nothing; either way the sink is left as it was and the entry is dropped. */
  function Finish(w: World, uuid: Uuid, ending: Status): (w': World)
    requires ending != Open
    ensures w'.registry.Keys == w.registry.Keys - {uuid} && |w'.streams| == |w.streams|
    ensures forall v :: v in w'.registry ==> w'.registry[v] == w.registry[v]
    ensures forall h :: 0 <= h < |w.streams| ==>
              && w'.streams[h].uuid == w.streams[h].uuid
              && w'.streams[h].sink.queue == w.streams[h].sink.queue
              && (w'.streams[h].sink.status == w.streams[h].sink.status
                  || (w.streams[h].sink.status == Open && w'.streams[h].sink.status == ending))
  {
    var streams :=
      if uuid in w.registry && w.streams[w.registry[uuid].stream].sink.status == Open then
        var h := w.registry[uuid].stream;
        w.streams[h := w.streams[h].(sink := w.streams[h].sink.(status := ending))]
      else w.streams;
    World(w.registry - {uuid}, streams)
  }

  /** The `pull` callback of stream `h` (lines 62-82). It looks the entry up by the stream's
      own `uuid`, which after a re-registration finds the newer entry, marks a pull as waiting,
      announces the start once per stream, and asks the producer for data every time. */
  function PullStream(w: World, h: nat): (t: Transition)
    ensures t.next.registry.Keys == w.registry.Keys && |t.next.streams| == |w.streams|
    ensures forall k :: 0 <= k < |w.streams| ==> t.next.streams[k].sink == w.streams[k].sink
    ensures h < |w.streams| ==> 1 <= |t.sent| <= 2 && t.sent[|t.sent| - 1] == PullData(w.streams[h].uuid)
    ensures h < |w.streams| ==> (|t.sent| == 2 <==> !w.streams[h].started)
  {
    if h >= |w.streams| then Transition(w, [])
    else
      var s := w.streams[h];
      var registry :=
        if s.uuid in w.registry then w.registry[s.uuid := w.registry[s.uuid].(pendingPull := true)]
        else w.registry;
      var started := if s.started then [] else [StreamStarted(s.uuid)];
      Transition(World(registry, w.streams[h := s.(started := true)]), started + [PullData(s.uuid)])
  }

  /** The reason reported when a read is cancelled: the consumer's own reason when it gave
      one that is truthy, otherwise a fixed text. The empty string is falsy, so it is
      replaced as well; the report is never empty. */
  function ReasonText(reason: Option<string>): (r: string)
    ensures r != ""
    ensures r == "User cancelled" || (reason.Some? && r == reason.value)
    ensures reason.Some? && reason.value != "" ==> r == reason.value
  {
    if reason.Some? && reason.value != "" then reason.value else "User cancelled"
  }

  /** The `cancel` callback of stream `h` (lines 83-90): tell the producer, then drop whatever
      entry the stream's `uuid` names. */
  function CancelStream(w: World, h: nat, reason: Option<string>): (t: Transition)
    ensures t.next.registry.Keys <= w.registry.Keys && |t.next.streams| == |w.streams|
    ensures forall k :: 0 <= k < |w.streams| ==> t.next.streams[k].sink == w.streams[k].sink
    ensures |t.sent| == if h < |w.streams| then 1 else 0
  {
    if h >= |w.streams| then Transition(w, [])
    else
      var s := w.streams[h];
      Transition(World(w.registry - {s.uuid}, w.streams[h := s.(cancelled := true)]),
                 [StreamAborted(s.uuid, ReasonText(reason))])
  }

  /** One atomic step of the worker. */
  function Step(w: World, ev: Event): (t: Transition)
    ensures |t.sent| <= 2
    ensures |t.next.streams| == |w.streams| + if ev.RegisterStream? then 1 else 0
    ensures forall h :: 0 <= h < |w.streams| ==>
              t.next.streams[h].uuid == w.streams[h].uuid && w.streams[h].sink.queue <= t.next.streams[h].sink.queue
  {
    match ev
    case RegisterStream(u, meta) => Transition(Register(w, u, meta), [])
    case PushData(u, chunk) => Transition(Push(w, u, chunk), [])
    case CloseStream(u) => Transition(Finish(w, u, Closed), [])
    case AbortStream(u) => Transition(Finish(w, u, Errored), [])
    case Pull(h) => PullStream(w, h)
    case Cancel(h, reason) => CancelStream(w, h, reason)
  }

  /** A sequence of steps, with everything broadcast along the way, in order. */
  function Run(w: World, evs: seq<Event>): (t: Transition)
    ensures |t.sent| <= 2 * |evs|
    ensures |w.streams| <= |t.next.streams|
    ensures forall h :: 0 <= h < |w.streams| ==>
              t.next.streams[h].uuid == w.streams[h].uuid && w.streams[h].sink.queue <= t.next.streams[h].sink.queue
    decreases |evs|
  {
    if |evs| == 0 then Transition(w, [])
    else
      var first := Step(w, evs[0]);
      var rest := Run(first.next, evs[1..]);
      Transition(rest.next, first.sent + rest.sent)
  }

  /** The invariant of every reachable world: each entry sits under its stream's own `uuid`,
      and that stream is still open and not cancelled; so no two entries share a stream. */
  predicate Consistent(w: World): (b: bool)
    ensures b ==> forall u, v :: u in w.registry && v in w.registry && u != v ==>
                    w.registry[u].stream != w.registry[v].stream
  {
    forall u :: u in w.registry ==>
         var s := w.streams[w.registry[u].stream];
         s.uuid == u && s.sink.status == Open && !s.cancelled
  }
}

=== FILE: uri_component.dfy ===
/** `encodeURIComponent` as ECMAScript defines it, over Dafny strings of scalar values:
    unreserved characters are kept, every other character is replaced by the
    percent-escapes (upper-case hexadecimal) of its UTF-8 bytes. It produces the value
    of the `filename*` parameter of the `Content-Disposition` header. */
module UriComponent {
  import opened Base
  import Utf8

  predicate IsAlphaNum(c: char) {
    'A' <= c <= 'Z' || 'a' <= c <= 'z' || '0' <= c <= '9'
  }

  /** The characters `encodeURIComponent` leaves as they are. */
  predicate Unreserved(c: char) {
    IsAlphaNum(c) || c in "-_.!~*'()"
  }

  /** attr-char of section 3.2.1 of RFC 8187: the characters an ext-value may carry unescaped. */
  predicate AttrChar(c: char) {
    IsAlphaNum(c) || c in "!#$&+-.^_`|~"
  }

  function HexDigit(d: nat): (c: char)
    requires d < 16
    ensures IsAlphaNum(c)
  {
    "0123456789ABCDEF"[d]
  }

  /** The value of a hexadecimal digit in either case. */
  function HexValue(c: char): Option<nat> {
    if '0' <= c <= '9' then Some(c as int - '0' as int)
    else if 'A' <= c <= 'F' then Some(c as int - 'A' as int + 10)
    else if 'a' <= c <= 'f' then Some(c as int - 'a' as int + 10)
    else None
  }

  lemma HexValueDigit(d: nat)
    requires d < 16
    ensures HexValue(HexDigit(d)) == Some(d)
  {
  }

  /** `%HH` for every byte. */
  function EscapeBytes(bs: seq<Byte>): (t: string)
    ensures |t| == 3 * |bs|
  {
    if |bs| == 0 then [] else ['%', HexDigit(bs[0] / 16), HexDigit(bs[0] % 16)] + EscapeBytes(bs[1..])
  }

  function EncodeChar(c: char): string {
    if Unreserved(c) then [c] else EscapeBytes(Utf8.EncodeChar(c))
  }

  /** `encodeURIComponent(s)`: the result is pure ASCII made of unreserved characters and escapes. */
  function Encode(s: string): (t: string)
    ensures forall i :: 0 <= i < |t| ==> Unreserved(t[i]) || t[i] == '%'
  {
    if |s| == 0 then []
    else
      var head := EncodeChar(s[0]);
      assert forall i :: 0 <= i < |head| ==> Unreserved(head[i]) || head[i] == '%' by {
        if !Unreserved(s[0]) {
          EscapeBytesAlphabet(Utf8.EncodeChar(s[0]));
        }
      }
      head + Encode(s[1..])
  }

  lemma {:induction false} EscapeBytesAlphabet(bs: seq<Byte>)
    ensures forall i :: 0 <= i < |EscapeBytes(bs)| ==> IsAlphaNum(EscapeBytes(bs)[i]) || EscapeBytes(bs)[i] == '%'
  {
    if |bs| > 0 {
      EscapeBytesAlphabet(bs[1..]);
    }
  }

  /** Puts one decoded byte in front of a decoding, keeping a failure a failure. */
  function Prepend(b: Byte, r: Option<seq<Byte>>): Option<seq<Byte>> {
    if r.Some? then Some([b] + r.value) else None
  }

  /** Reverses the percent-escaping: unreserved characters stand for their own ASCII byte,
      `%HH` for the byte HH; anything else is refused. */
  function Unescape(t: string): Option<seq<Byte>>
    decreases |t|
  {
    if |t| == 0 then Some([])
    else if t[0] == '%' then
      if |t| >= 3 && HexValue(t[1]).Some? && HexValue(t[2]).Some? then
        Prepend(HexValue(t[1]).value * 16 + HexValue(t[2]).value, Unescape(t[3..]))
      else None
    else if Unreserved(t[0]) then Prepend(t[0] as int, Unescape(t[1..]))
    else None
  }

  /** One escape `%HH` unescapes to the byte HH. */
  lemma UnescapeEscape(b: Byte, rest: string)
    ensures Unescape(['%', HexDigit(b / 16), HexDigit(b % 16)] + rest) == Prepend(b, Unescape(rest))
  {
    var t := ['%', HexDigit(b / 16), HexDigit(b % 16)] + rest;
    HexValueDigit(b / 16);
    HexValueDigit(b % 16);
    assert t[1] == HexDigit(b / 16) && t[2] == HexDigit(b % 16);
    assert (b / 16) * 16 + b % 16 == b;
    assert t[3..] == rest;
  }

  /** Puts several decoded bytes in front of a decoding, keeping a failure a failure. */
  function PrependAll(bs: seq<Byte>, r: Option<seq<Byte>>): Option<seq<Byte>> {
    if r.Some? then Some(bs + r.value) else None
  }

  lemma {:induction false} UnescapeEscapeBytes(bs: seq<Byte>, rest: string)
    ensures Unescape(EscapeBytes(bs) + rest) == PrependAll(bs, Unescape(rest))
  {
    if |bs| > 0 {
      var b := bs[0];
      var tail := EscapeBytes(bs[1..]) + rest;
      calc {
        Unescape(EscapeBytes(bs) + rest);
        { ConcatAssoc(['%', HexDigit(b / 16), HexDigit(b % 16)], EscapeBytes(bs[1..]), rest); }
        Unescape(['%', HexDigit(b / 16), HexDigit(b % 16)] + tail);
        { UnescapeEscape(b, tail); }
        Prepend(b, Unescape(tail));
        { UnescapeEscapeBytes(bs[1..], rest); }
        Prepend(b, PrependAll(bs[1..], Unescape(rest)));
        { if Unescape(rest).Some? {
            ConcatAssoc([b], bs[1..], Unescape(rest).value);
            assert [b] + bs[1..] == bs;
          } }
        PrependAll(bs, Unescape(rest));
      }
    } else {
      assert EscapeBytes(bs) + rest == rest;
      if Unescape(rest).Some? {
        assert bs + Unescape(rest).value == Unescape(rest).value;
      }
    }
  }

  /** Unescaping the value gives exactly the UTF-8 bytes of the original string. */
  lemma {:induction false} UnescapeEncode(s: string)
    ensures Unescape(Encode(s)) == Some(Utf8.Encode(s))
  {
    if |s| > 0 {
      var c := s[0];
      UnescapeEncode(s[1..]);
      if Unreserved(c) {
        assert (EncodeChar(c) + Encode(s[1..]))[1..] == Encode(s[1..]);
      } else {
        UnescapeEscapeBytes(Utf8.EncodeChar(c), Encode(s[1..]));
      }
    }
  }

  /** A recipient that unescapes the value and decodes it as UTF-8 recovers the string. */
  lemma RecoverString(s: string)
    ensures Unescape(Encode(s)).Some?
    ensures Utf8.Decode(Unescape(Encode(s)).value) == Some(s)
  {
    UnescapeEncode(s);
    Utf8.DecodeEncode(s);
  }

  /** The encoding is injective: different strings never share an encoded value. */
  lemma EncodeInjective(s1: string, s2: string)
    requires Encode(s1) == Encode(s2)
    ensures s1 == s2
  {
    RecoverString(s1);
    RecoverString(s2);
  }

  /** Every character of the value is an RFC 8187 attr-char, a `%` of an escape, or one of the
      four marks `'`, `(`, `)`, `*` that `encodeURIComponent` keeps but attr-char excludes. */
  lemma EncodeAlphabet(s: string)
    ensures forall i :: 0 <= i < |Encode(s)| ==> AttrChar(Encode(s)[i]) || Encode(s)[i] == '%' || Encode(s)[i] in "'()*"
  {
  }

  /** The mark `'` passes through unescaped, so a filename holding it yields a value outside the
      RFC 8187 value-chars grammar. */
  lemma ApostropheKept()
    ensures Encode("'") == "'"
    ensures !AttrChar('\'')
  {
  }
}

=== FILE: utf8.dfy ===
/** UTF-8 encoding of Unicode scalar values (Dafny's `char`), the byte form that
    `encodeURIComponent` percent-escapes, and a strict decoder that inverts it. */
module Utf8 {
  import opened Base

  /** A continuation byte, 10xxxxxx. */
  predicate IsContinuation(b: Byte) {
    0x80 <= b < 0xC0
  }

  /** The six payload bits of a continuation byte. */
  function Low(b: Byte): (r: int)
    requires IsContinuation(b)
    ensures 0 <= r < 64
  {
    b as int - 0x80
  }

  /** The one- to four-byte UTF-8 form of a single scalar value. */
  function EncodeChar(c: char): (bs: seq<Byte>)
    ensures 1 <= |bs| <= 4
    ensures |bs| == 1 <==> c as int < 0x80
    ensures |bs| == 1 ==> bs[0] == c as int
    ensures |bs| == 2 ==> 0xC0 <= bs[0] < 0xE0
    ensures |bs| == 3 ==> 0xE0 <= bs[0] < 0xF0
    ensures |bs| == 4 ==> 0xF0 <= bs[0] < 0xF8
    ensures forall i :: 1 <= i < |bs| ==> IsContinuation(bs[i])
  {
    var cp := c as int;
    if cp < 0x80 then [cp]
    else if cp < 0x800 then [0xC0 + cp / 64, 0x80 + cp % 64]
    else if cp < 0x10000 then [0xE0 + cp / 4096, 0x80 + (cp / 64) % 64, 0x80 + cp % 64]
    else [0xF0 + cp / 262144, 0x80 + (cp / 4096) % 64, 0x80 + (cp / 64) % 64, 0x80 + cp % 64]
  }

  /** The UTF-8 form of a string. */
  function Encode(s: string): seq<Byte> {
    if |s| == 0 then [] else EncodeChar(s[0]) + Encode(s[1..])
  }

  /** Decodes the scalar value at the front of `bs`, with the number of bytes it took.
      Overlong forms, surrogates, values above U+10FFFF and truncated sequences are refused. */
  function DecodeChar(bs: seq<Byte>): (r: Option<(char, nat)>)
    ensures r.Some? ==> 1 <= r.value.1 <= |bs| && r.value.1 <= 4
  {
    if |bs| == 0 then None
    else
      var b0: int := bs[0];
      if b0 < 0x80 then Some((b0 as char, 1))
      else if 0xC2 <= b0 < 0xE0 && |bs| >= 2 && IsContinuation(bs[1]) then
        var cp := (b0 - 0xC0) * 64 + Low(bs[1]);
        Some((cp as char, 2))
      else if 0xE0 <= b0 < 0xF0 && |bs| >= 3 && IsContinuation(bs[1]) && IsContinuation(bs[2]) then
        var cp := (b0 - 0xE0) * 4096 + Low(bs[1]) * 64 + Low(bs[2]);
        if 0x800 <= cp < 0xD800 || 0xE000 <= cp then Some((cp as char, 3)) else None
      else if 0xF0 <= b0 < 0xF5 && |bs| >= 4 && IsContinuation(bs[1]) && IsContinuation(bs[2]) && IsContinuation(bs[3]) then
        var cp := (b0 - 0xF0) * 262144 + Low(bs[1]) * 4096 + Low(bs[2]) * 64 + Low(bs[3]);
        if 0x10000 <= cp < 0x110000 then Some((cp as char, 4)) else None
      else None
  }

  /** Decodes a whole byte sequence, or refuses it if it is not well-formed UTF-8. */
  function Decode(bs: seq<Byte>): Option<string>
    decreases |bs|
  {
    if |bs| == 0 then Some([])
    else
      match DecodeChar(bs)
      case None => None
      case Some((c, n)) =>
        match Decode(bs[n..])
        case None => None
        case Some(rest) => Some([c] + rest)
  }

  lemma DecodeTwo(cp: int, rest: seq<Byte>)
    requires 0x80 <= cp < 0x800
    ensures DecodeChar([0xC0 + cp / 64, 0x80 + cp % 64] + rest) == Some((cp as char, 2))
  {
    var bs: seq<Byte> := [0xC0 + cp / 64, 0x80 + cp % 64] + rest;
    assert Low(bs[1]) == cp % 64;
    assert (cp / 64) * 64 + cp % 64 == cp;
  }

  lemma DecodeThree(cp: int, rest: seq<Byte>)
    requires 0x800 <= cp < 0x10000 && !(0xD800 <= cp < 0xE000)
    ensures DecodeChar([0xE0 + cp / 4096, 0x80 + (cp / 64) % 64, 0x80 + cp % 64] + rest) == Some((cp as char, 3))
  {
    var bs: seq<Byte> := [0xE0 + cp / 4096, 0x80 + (cp / 64) % 64, 0x80 + cp % 64] + rest;
    var hi := cp / 4096;
    var mid := (cp / 64) % 64;
    var lo := cp % 64;
    assert cp / 64 == hi * 64 + mid;
    assert cp == (cp / 64) * 64 + lo;
    assert Low(bs[1]) == mid && Low(bs[2]) == lo;
    assert hi * 4096 + mid * 64 + lo == cp;
  }

  lemma DecodeFour(cp: int, rest: seq<Byte>)
    requires 0x10000 <= cp < 0x110000
    ensures DecodeChar([0xF0 + cp / 262144, 0x80 + (cp / 4096) % 64, 0x80 + (cp / 64) % 64, 0x80 + cp % 64] + rest)
         == Some((cp as char, 4))
  {
    var bs: seq<Byte> := [0xF0 + cp / 262144, 0x80 + (cp / 4096) % 64, 0x80 + (cp / 64) % 64, 0x80 + cp % 64] + rest;
    var top := cp / 262144;
    var hi := (cp / 4096) % 64;
    var mid := (cp / 64) % 64;
    var lo := cp % 64;
    assert cp / 4096 == top * 64 + hi;
    assert cp / 64 == (cp / 4096) * 64 + mid;
    assert cp == (cp / 64) * 64 + lo;
    assert Low(bs[1]) == hi && Low(bs[2]) == mid && Low(bs[3]) == lo;
    assert top * 262144 + hi * 4096 + mid * 64 + lo == cp;
  }

  /** Decoding the front of an encoded character finds that character and its length. */
  lemma DecodeCharEncodeChar(c: char, rest: seq<Byte>)
    ensures DecodeChar(EncodeChar(c) + rest) == Some((c, |EncodeChar(c)|))
  {
    var cp := c as int;
    if cp < 0x80 {
    } else if cp < 0x800 {
      DecodeTwo(cp, rest);
    } else if cp < 0x10000 {
      DecodeThree(cp, rest);
    } else {
      DecodeFour(cp, rest);
    }
  }

  /** Every string is recovered from its UTF-8 form. */
  lemma {:induction false} DecodeEncode(s: string)
    ensures Decode(Encode(s)) == Some(s)
  {
    if |s| > 0 {
      var e := EncodeChar(s[0]);
      DecodeCharEncodeChar(s[0], Encode(s[1..]));
      assert (e + Encode(s[1..]))[|e|..] == Encode(s[1..]);
      DecodeEncode(s[1..]);
      assert [s[0]] + s[1..] == s;
    }
  }

  /** What the decoder accepts at the front is exactly the encoding of the character it reports. */
  lemma EncodeCharDecodeChar(bs: seq<Byte>)
    requires DecodeChar(bs).Some?
    ensures EncodeChar(DecodeChar(bs).value.0) == bs[..DecodeChar(bs).value.1]
  {
    var b0: int := bs[0];
    if b0 < 0x80 {
    } else if 0xC2 <= b0 < 0xE0 {
      EncodeTwoBack(bs[0], bs[1]);
      assert bs[..2] == [bs[0], bs[1]];
    } else if 0xE0 <= b0 < 0xF0 {
      EncodeThreeBack(bs[0], bs[1], bs[2]);
      assert bs[..3] == [bs[0], bs[1], bs[2]];
    } else {
      EncodeFourBack(bs[0], bs[1], bs[2], bs[3]);
      assert bs[..4] == [bs[0], bs[1], bs[2], bs[3]];
    }
  }

  /** A well-formed two-byte form is the encoding of the value it carries. */
  lemma EncodeTwoBack(b0: Byte, b1: Byte)
    requires 0xC2 <= b0 < 0xE0 && IsContinuation(b1)
    ensures var cp := (b0 as int - 0xC0) * 64 + Low(b1);
            cp < 0x800 && EncodeChar(cp as char) == [b0, b1]
  {
    var cp := (b0 as int - 0xC0) * 64 + Low(b1);
    assert cp / 64 == b0 as int - 0xC0 && cp % 64 == Low(b1);
  }

  /** A well-formed three-byte form is the encoding of the value it carries. */
  lemma EncodeThreeBack(b0: Byte, b1: Byte, b2: Byte)
    requires 0xE0 <= b0 < 0xF0 && IsContinuation(b1) && IsContinuation(b2)
    requires var cp := (b0 as int - 0xE0) * 4096 + Low(b1) * 64 + Low(b2);
             0x800 <= cp < 0xD800 || 0xE000 <= cp
    ensures var cp := (b0 as int - 0xE0) * 4096 + Low(b1) * 64 + Low(b2);
            cp < 0x10000 && EncodeChar(cp as char) == [b0, b1, b2]
  {
    var cp := (b0 as int - 0xE0) * 4096 + Low(b1) * 64 + Low(b2);
    assert cp / 64 == (b0 as int - 0xE0) * 64 + Low(b1) && cp % 64 == Low(b2);
    assert cp / 4096 == (cp / 64) / 64;
    assert cp / 4096 == b0 as int - 0xE0 && (cp / 64) % 64 == Low(b1);
  }

  /** A well-formed four-byte form is the encoding of the value it carries. */
  lemma EncodeFourBack(b0: Byte, b1: Byte, b2: Byte, b3: Byte)
    requires 0xF0 <= b0 < 0xF5 && IsContinuation(b1) && IsContinuation(b2) && IsContinuation(b3)
    requires var cp := (b0 as int - 0xF0) * 262144 + Low(b1) * 4096 + Low(b2) * 64 + Low(b3);
             0x10000 <= cp < 0x110000
    ensures var cp := (b0 as int - 0xF0) * 262144 + Low(b1) * 4096 + Low(b2) * 64 + Low(b3);
            EncodeChar(cp as char) == [b0, b1, b2, b3]
  {
    var cp := (b0 as int - 0xF0) * 262144 + Low(b1) * 4096 + Low(b2) * 64 + Low(b3);
    var q1 := cp / 64;
    var q2 := cp / 4096;
    assert q1 == (b0 as int - 0xF0) * 4096 + Low(b1) * 64 + Low(b2) && cp % 64 == Low(b3);
    assert q2 == q1 / 64;
    assert q2 == (b0 as int - 0xF0) * 64 + Low(b1) && q1 % 64 == Low(b2);
    assert cp / 262144 == q2 / 64;
    assert cp / 262144 == b0 as int - 0xF0 && q2 % 64 == Low(b1);
  }

  /** Whatever the decoder accepts is the UTF-8 form of what it returns: the decoder refuses
      every byte sequence the encoder cannot produce. */
  lemma {:induction false} EncodeDecode(bs: seq<Byte>)
    requires Decode(bs).Some?
    ensures Encode(Decode(bs).value) == bs
    decreases |bs|
  {
    if |bs| > 0 {
      var c := DecodeChar(bs).value.0;
      var n := DecodeChar(bs).value.1;
      EncodeCharDecodeChar(bs);
      EncodeDecode(bs[n..]);
      var r := Decode(bs[n..]).value;
      assert Decode(bs).value == [c] + r;
      EncodeCons(c, r);
      TakeDrop(bs, n);
    }
  }

  /** The UTF-8 form of a string is its first character's form followed by the rest's. */
  lemma EncodeCons(c: char, r: string)
    ensures Encode([c] + r) == EncodeChar(c) + Encode(r)
  {
    assert ([c] + r)[0] == c && ([c] + r)[1..] == r;
  }
}
